=== FILE: README.md ===
# fastplotlib graphics core in Dafny

This project models the graphic constructors of `fastplotlib/graphics/graphics.py`:
how a graphic turns raw numeric data and a colour specification into scene
objects, and how each graphic updates its data in place.

- **Colour resolution** (`_Graphic.__init__`, `_set_colors`). A `colors`
  argument that is `False`, `None` or an array, together with an optional
  colormap, becomes an RGBA table, an error, or no table at all.
- **Scatter**. The data rows are split by exact equality of their colour rows,
  one points object per distinct colour, in `np.unique(axis=0)` order (rows
  compared lexicographically). Each object keeps its rows in their original
  order.
- **Histogram**. The constructor checks `pre_computed`, rescales the bin edges
  onto `[0, draw_scale_factor]`, and computes the bin centres and the bar width.
  It then builds one flat mesh per bin, placed at `(x, h/2, 0)`.
- **Line**. The material is thin below a size of 1.1 and thick otherwise.
  `update_data` overwrites the whole position buffer.
- **Image**. The intensity bounds are both taken from `quick_min_max` unless
  both are given. The `clim` property reads and writes the material.

The model is built from immutable datatypes and pure functions.

- **Arrays.** numpy arrays are datatypes: a 1-D vector, a 2-D table of rows, or
  a shape only (3-D and up).
- **numpy operations.** The model spells out `astype(float32)` (values kept),
  boolean-mask indexing, `np.all(a == row, axis=1)`, `np.unique(axis=0)` and
  slice assignment `a[:] = b` with broadcasting.
- **Scene objects.** `Points`, `Mesh`, `Line` and `Image` objects and their
  materials are plain records holding the fields the code sets.
- **Failures.** Constructors return a `Result`. A `Fault` names the ValueError
  raised, the helper that raised, or the numpy error that stops construction:
  a mask of the wrong length, shapes that do not broadcast, a failed or empty
  `vstack`, indexing an empty list or past the end of an array, the minimum of
  an empty array, or an array operation on `None`.
- **Collaborators.** `get_colors`, `map_labels_to_colors`, `get_cmap_texture`,
  `quick_min_max` and `np.histogram` are not part of this model. They are
  function-valued fields of a `Utils.Collaborators` record. Every helper but
  `quick_min_max` may refuse its arguments (an unknown colormap name, data
  `np.histogram` cannot bin): it then answers `None`, and the caller fails with
  `HelperRaised`.
- **Collaborator contract.** Their documented contract is the predicate
  `Utils.ColormapContract`: when they answer, `get_colors(n, …)` gives `n` RGBA
  rows and `map_labels_to_colors(labels, …)` gives one RGBA row per label. The
  model never assumes it; it is a hypothesis only of the lemmas that need it.
- **Shared buffers.** The image texture is built on the graphic's own float32
  array, so `Image.update_data` changes the graphic's data too. The scatter's
  points objects hold copies made by boolean indexing.

Three points where the code accepts more than it checks; the model follows the code:

- **Silent fall-through.** With both `colors` and `cmap` given and `colors` not
  1-D integer labels, `_set_colors` raises nothing and leaves `colors` as
  `None`. Its final `else`, which raises "Unknown color format"
  (fastplotlib/graphics/graphics.py:45-46), cannot be reached: the four guards
  before it cover every combination of `colors` and `cmap` being `None`.
  `Graphics.SetColors` returns `Ok(None)` in the fall-through case and proves
  that the unknown-format error is never produced.
- **Label count.** For integer labels the table has one row per label. The
  code never compares that count with `colors_length`.
- **Empty colour table.** A scatter whose colour table is empty but whose
  data is not (an RGBA array of shape `(0, 4)` with `colors_length=0`, or an
  empty label array with a `cmap`) is built with no points objects:
  `np.unique` yields no rows, the grouping loop never runs, and every data
  point is dropped. `Scatters.NewScatter` states this case, and the partition
  lemmas hold only for a non-empty table.

## Model

| member | source | states |
|---|---|---|
| `Graphics.NewGraphic` | fastplotlib/graphics/graphics.py:8-23 | The data is kept as float32 with unchanged values. `colors=False` leaves `colors` as `None` with no error. Otherwise the outcome is colour resolution with `colors_length` defaulting to the number of data rows. |
| `Graphics.SetColors` | fastplotlib/graphics/graphics.py:25-46 | There are five cases: white default, colormap sampling, RGBA pass-through, label mapping, and the silent fall-through to `None`. It fails exactly when the white default has no rows to stack, when a colormap helper refuses the name, or when an RGBA array is not `(colors_length, 4)`, with the matching fault for each. "Unknown color format" is never produced. |
| `Graphics.WhiteRows` | fastplotlib/graphics/graphics.py:27 | For a positive count, exactly `n` rows, each `(1, 1, 1, 1)`; a count of zero is the stacking error of `Graphics.SetColors`. |
| `Graphics.Graphic.UpdateData` | fastplotlib/graphics/graphics.py:48-49 | The base `update_data` leaves the graphic as it was. |
| `Graphics.DefaultColorsFollowRowCount` | fastplotlib/graphics/graphics.py:19-27 | With neither colours nor colormap, a graphic gets one white row per data row, or `colors_length` rows when that is given. It fails with the stacking error exactly when that count is zero. |
| `Graphics.ResolvedColorsShape` | fastplotlib/graphics/graphics.py:26-43 | Under the collaborators' contract, every resolved table has RGBA rows. It has `colors_length` rows, except with labels, where it has one row per label. |
| `Graphics.ThreeWhiteRows` | fastplotlib/graphics/graphics.py:26-27 | `_set_colors(None, 3, None, 1.0)` gives three opaque white rows. |
| `NdArrays.NdArray.AsFloat32` | fastplotlib/graphics/graphics.py:16 | `astype(float32)` keeps the shape, the validity and every element value of the array (the same vector or the same table of rows) and makes its element type float. |
| `NdArrays.Mask` | fastplotlib/graphics/graphics.py:101 | `np.all(colors == color, axis=1)` holds at row `i` exactly when colour row `i` equals `color`. |
| `NdArrays.TrueIndices` | fastplotlib/graphics/graphics.py:101 | The indices where a boolean mask holds, each in range, strictly increasing, and all of them. |
| `NdArrays.BoolIndex` | fastplotlib/graphics/graphics.py:101 | `items[mask]` picks exactly the items at the mask's true indices, in order. |
| `NdArrays.BroadcastRows` | fastplotlib/graphics/graphics.py:84 | Broadcasting a `(k, v)` array onto `(n, w)` repeats its single row or column where it has only one. |
| `NdArrays.SliceAssign` | fastplotlib/graphics/graphics.py:84 | `dst[:] = src` succeeds exactly when the shapes broadcast, and raises otherwise. It keeps the shape of `dst`. Every element becomes the broadcast element of `src`, so an equal-shaped `src` is copied. |
| `NdArrays.SliceAssignIdempotent` | fastplotlib/graphics/graphics.py:84 | Writing the same array twice leaves what one write leaves. |
| `UniqueRows.LexLessIrreflexive` | fastplotlib/graphics/graphics.py:99 | No row sorts before itself in `np.unique` order. |
| `UniqueRows.LexLessTransitive` | fastplotlib/graphics/graphics.py:99 | The row order of `np.unique` is transitive. |
| `UniqueRows.LexLessTotal` | fastplotlib/graphics/graphics.py:99 | Any two distinct rows are ordered one way or the other. |
| `UniqueRows.Insert` | fastplotlib/graphics/graphics.py:99 | Adding a row to a sorted list of distinct rows keeps it sorted and without repeats, and adds exactly that row. |
| `UniqueRows.Unique` | fastplotlib/graphics/graphics.py:99 | `np.unique(colors, axis=0)` is strictly increasing and holds exactly the rows that occur in `colors`. |
| `UniqueRows.SortedListsWithSameRowsAreEqual` | fastplotlib/graphics/graphics.py:99 | Two strictly sorted lists with the same rows are equal. So the result of `np.unique` is determined by the set of rows alone. |
| `UniqueRows.StrictlySortedCardinality` | fastplotlib/graphics/graphics.py:99 | A strictly sorted list has as many entries as distinct rows. |
| `UniqueRows.UniqueCountsDistinctRows` | fastplotlib/graphics/graphics.py:99 | `np.unique` returns one entry per distinct colour row. |
| `Scatters.ProcessPositions` | fastplotlib/graphics/graphics.py:112-116 | A 1-D array becomes the single row of a 2-D array, and a 2-D array is returned as it is. |
| `Scatters.GroupPositions` | fastplotlib/graphics/graphics.py:100-102 | The positions of one colour group form a well-formed 2-D array. |
| `Scatters.Groups` | fastplotlib/graphics/graphics.py:99-110 | The loop makes one points object per unique colour row, in `np.unique` order. Object `k` carries the `k`-th unique colour, the size, and the positions that colour's mask selects. |
| `Scatters.NewScatter` | fastplotlib/graphics/graphics.py:92-110 | Construction succeeds exactly when colour resolution gives a table that is empty or has one row per datapoint. Otherwise it fails with the resolution error, with the error of `np.unique(None)` when there is no table, or with the mask-length error. A built scatter has the base graphic, no points objects for an empty table, and otherwise the colour groups of its float32 data. |
| `Scatters.GatherSnoc` | fastplotlib/graphics/graphics.py:99-102 | One more data row adds itself once to the groups, and only when its colour is listed. |
| `Scatters.GatherIsPermutation` | fastplotlib/graphics/graphics.py:99-102 | Gathering rows by a list of distinct colours that covers every row's colour permutes the rows. |
| `Scatters.AllPositionsOfGroups` | fastplotlib/graphics/graphics.py:99-110 | The concatenated positions of the points objects are the rows gathered colour by colour. |
| `Scatters.ScatterHoldsGroups` | fastplotlib/graphics/graphics.py:94-110 | A scatter with a nonempty colour table has one colour row per data row, and its points objects are the colour groups of its float32 data. |
| `Scatters.GroupColors` | fastplotlib/graphics/graphics.py:99-106 | There are as many groups as distinct colour rows. Their colours are strictly increasing, and a colour occurs in the table exactly when some group carries it. |
| `Scatters.OnePointsObjectPerColor` | fastplotlib/graphics/graphics.py:99-110 | A built scatter has exactly one points object per distinct colour row, in sorted-unique order, and every table colour has an object. |
| `Scatters.GroupsKeepRowsInOrder` | fastplotlib/graphics/graphics.py:99-102 | For 2-D data, each points object holds exactly the data rows of its colour, at strictly increasing indices, so their original relative order is kept. |
| `Scatters.RowInItsGroup` | fastplotlib/graphics/graphics.py:99-102 | Each row of a table lands in the group of its own colour, and no other group has that colour. |
| `Scatters.RowPicked` | fastplotlib/graphics/graphics.py:101 | Masking by a row's own colour keeps that row. |
| `Scatters.EveryRowInItsColorGroup` | fastplotlib/graphics/graphics.py:99-110 | For 2-D data and a non-empty colour table, every data row of a built scatter is in the points object of its own colour, and that object is the only one with the colour. |
| `Scatters.GroupsPermuteData` | fastplotlib/graphics/graphics.py:99-110 | For 2-D data and a non-empty colour table, the positions of all points objects together are a permutation of the data rows. |
| `Scatters.SinglePointIsOneRow` | fastplotlib/graphics/graphics.py:93-116 | A single 1-D point with default colours gives one white points object, whose positions are that point as one row. |
| `Scatters.WhiteGroupIsWholePoint` | fastplotlib/graphics/graphics.py:99-116 | The default colours of a 1-D point have the single unique row white, and its group is the whole point as one row. |
| `Scatters.ConstantMaskPicksAll` | fastplotlib/graphics/graphics.py:101 | Masking by the only colour of a single-coloured table selects every item, in order. |
| `Scatters.TrueIndicesOfAllTrue` | fastplotlib/graphics/graphics.py:101 | A mask that holds everywhere selects every index in order. |
| `Scatters.UniqueOfTwoColors` | fastplotlib/graphics/graphics.py:99 | Colours `a, a, b` with `b` sorting first have the unique rows `b, a`. |
| `Scatters.GroupOfLastColor` | fastplotlib/graphics/graphics.py:100-102 | With colours `a, a, b`, the group of `b` is the last data row. |
| `Scatters.GroupOfFirstColor` | fastplotlib/graphics/graphics.py:100-102 | With colours `a, a, b`, the group of `a` is the first two data rows, in order. |
| `Scatters.TwoColorGroups` | fastplotlib/graphics/graphics.py:99-110 | Three rows coloured `a, a, b` with `b` first give a `b` object with the last row, then an `a` object with the first two rows. |
| `Scatters.RedRedGreenScenario` | fastplotlib/graphics/graphics.py:92-110 | Points `[0,0]`, `[1,1]`, `[2,2]` coloured red, red, green give a green object with the last point, then a red object with the first two points. |
| `Scatters.UpdateData` | fastplotlib/graphics/graphics.py:118-122 | Only the first points object is written: its positions become the broadcast of the processed float32 positions onto its own shape, element by element. Everything else is left as it was. The update fails with no points objects or with shapes that do not broadcast. |
| `Scatters.UpdateDataIdempotent` | fastplotlib/graphics/graphics.py:118-121 | Updating twice with the same data leaves what one update leaves. |
| `Lines.MaterialFor` | fastplotlib/graphics/graphics.py:129-132 | The material is thin exactly when `size < 1.1`. Its thickness is the size and it uses vertex colours. |
| `Lines.NewLine` | fastplotlib/graphics/graphics.py:125-139 | The line fails exactly when the base graphic does. Its geometry holds the float32 data as positions and the resolved colours, with the material chosen by size. |
| `Lines.LineColorsPerVertex` | fastplotlib/graphics/graphics.py:125-139 | Under the collaborators' contract and without colour labels, a built line has one RGBA colour per vertex, as per-vertex colouring needs. |
| `Lines.UpdateData` | fastplotlib/graphics/graphics.py:141-144 | `self.data` is replaced even when the buffer write raises. The buffer write succeeds exactly when the shapes broadcast; it keeps the buffer's shape, and the buffer becomes the broadcast of the new data onto that shape. A failed write leaves the scene object unchanged. |
| `Lines.UpdateDataIdempotent` | fastplotlib/graphics/graphics.py:141-143 | Updating twice with the same data leaves what one update leaves. |
| `Images.Image.WithClim` | fastplotlib/graphics/graphics.py:79-81 | The `clim` setter changes the material's bounds and nothing else. |
| `Images.Bounds` | fastplotlib/graphics/graphics.py:65-66 | The given pair is kept only when both bounds are given. Otherwise both bounds come from `quick_min_max(data)`. |
| `Images.NewImage` | fastplotlib/graphics/graphics.py:52-73 | The image fails exactly when the base graphic, which always sees `cmap`, fails, or when the colormap texture lookup refuses the name. The texture holds the float32 data, shared with the graphic, with the 'nearest' filter whatever `filter` is. The material has the chosen bounds and the colormap's table. |
| `Images.ImageColorsPerRow` | fastplotlib/graphics/graphics.py:52-63 | Under the collaborators' contract and without explicit colours, a built image has one RGBA colour sampled from its colormap per image row. |
| `Images.UpdateData` | fastplotlib/graphics/graphics.py:83-85 | The texture data becomes the broadcast of the new array onto the texture's own shape, and the graphic's data with it, since they are one buffer. This succeeds exactly when the shapes broadcast; the material, filter and shape stay. |
| `Images.UpdateDataIdempotent` | fastplotlib/graphics/graphics.py:83-84 | Updating twice with the same array leaves what one update leaves. |
| `Images.UpdatesKeepBounds` | fastplotlib/graphics/graphics.py:63-85 | Any run of updates keeps the bounds and colormap of the material, the colours and the grid's shape, and keeps the graphic's data shared with the texture: only the `clim` setter moves the bounds. |
| `Images.ClimRoundTrip` | fastplotlib/graphics/graphics.py:75-81 | The `clim` getter `Image.Clim` and setter `Image.WithClim` are inverse: reading `clim` after setting it gives the levels set, and setting it to its own value changes nothing. |
| `Histograms.Precomputed` | fastplotlib/graphics/graphics.py:160-165 | A key set other than `{'hist', 'bin_edges'}` is the first ValueError. A value that is not an ndarray is the second. Otherwise the result is the two arrays. |
| `Histograms.Binned` | fastplotlib/graphics/graphics.py:158-165 | A precomputed dictionary decides the counts and edges alone, with its checks, and the data is not looked at. Without one, no data is an error, and otherwise the counts and edges are those of `np.histogram`, whose refusal is the error. |
| `Histograms.MinOf` | fastplotlib/graphics/graphics.py:168 | `min()` is an element no greater than any element. |
| `Histograms.MaxOf` | fastplotlib/graphics/graphics.py:168 | `max()` is an element no smaller than any element. |
| `Histograms.Ptp` | fastplotlib/graphics/graphics.py:168 | `np.ptp` is never negative. |
| `Histograms.ScaleEdges` | fastplotlib/graphics/graphics.py:168 | There is one scaled edge per bin edge. |
| `Histograms.Centers` | fastplotlib/graphics/graphics.py:170-172 | There is one centre per bin, and centres differ exactly as their left edges do. |
| `Histograms.BinWidth` | fastplotlib/graphics/graphics.py:174-175 | `n_bins` bars of this width side by side cover the draw range times the bar-width factor. |
| `Histograms.Layout` | fastplotlib/graphics/graphics.py:167-194 | `np.vstack` fails when the counts and centres differ in length. Otherwise the outcome follows the base graphic, built on the `(2, n)` stack of centres and counts. There is one mesh per bin, of width `(draw_scale_factor / n_bins) * draw_bin_width_scale` and height `h`, at `(x, h/2, 0)`. Default colours are one white row per bin. |
| `Histograms.NewHistogram` | fastplotlib/graphics/graphics.py:147-194 | Both `pre_computed` checks come before anything else and decide the error, as does a failure to bin. No edges fail at their minimum, one edge fails at the second scaled edge, and otherwise the scene is the layout of the counts and edges. |
| `Histograms.OnlyHistKeyRejected` | fastplotlib/graphics/graphics.py:161-162 | A dictionary with only a 'hist' key is refused with the key error. |
| `Histograms.ScaledEdgeAt` | fastplotlib/graphics/graphics.py:168 | Each scaled edge is its distance above the smallest edge, over the spread, times the scale factor. |
| `Histograms.RescaleInRange` | fastplotlib/graphics/graphics.py:168 | The smallest edge maps to 0 and the largest to the scale factor. With a non-negative scale factor, every edge maps into `[0, scale]`. |
| `Histograms.ScaledEdgesSpanDrawRange` | fastplotlib/graphics/graphics.py:167-168 | The scaled edges run from 0 at the smallest edge to `draw_scale_factor` at the largest, and with a non-negative factor they stay in between. |
| `Histograms.CentersFollowEdgeOrder` | fastplotlib/graphics/graphics.py:168-172 | With a positive scale factor, the bin centres come in the order of their left edges. |
| `Histograms.RescaleMonotone` | fastplotlib/graphics/graphics.py:168 | Rescaling with a positive scale factor keeps the order of edges. |
| `Histograms.EvenEdgesSpan` | fastplotlib/graphics/graphics.py:168 | Evenly spaced edges start at their minimum and spread over `n` steps. |
| `Histograms.EvenScaledBin` | fastplotlib/graphics/graphics.py:168-175 | For evenly spaced edges, every scaled bin is as wide as the first one, and that width is `draw_scale_factor / n_bins`. |
| `Histograms.EvenBinsCenteredAndAdjacent` | fastplotlib/graphics/graphics.py:168-175 | For evenly spaced edges, each centre is the midpoint of its bin. With `draw_bin_width_scale = 1`, each bar is exactly as wide as its bin. |

## Left out

- `fastplotlib/plot.py`, and the subplot and canvas wiring: they are not part of this model.
- pygfx internals are plain records here: textures, texture views, groups, geometry buffers, and the `update_range` dirty-range calls. The dirty-range calls only tell the renderer what to upload. The one buffer shared with the graphic's data, the image texture, is modelled. The line buffer is built on the graphic's array too, but `Line.update_data` first rebinds `self.data` to a new array, so the write lands in an array only the buffer holds.
- `get_colors`, `map_labels_to_colors`, `get_cmap_texture`, `quick_min_max` and `np.histogram` are not part of this model. They are abstract function fields of `Utils.Collaborators`. `get_cmap_texture` is represented by the colormap's lookup table of colours.
- Images.Bounds: `quick_min_max` is taken to always answer; what it does on an empty array is not part of this model.
- The colormap helpers' length contract is the hypothesis `Utils.ColormapContract`, not an axiom, because this model leaves their bodies abstract. Nothing ties the helpers together: that a name refused by one is refused by all is not assumed.
- IEEE float32 casting and rounding: values are exact reals. `astype(float32)` and `np.ascontiguousarray` keep values.
- Histograms.NewHistogram: requires a positive spread when there are two or more edges. When there are two or more edges and all of them are equal, numpy divides zero by zero without raising, and the resulting NaN layout is not modelled.
- `Image.update_cmap` only swaps a renderer resource, and texture upload is not modelled.
- Arrays of 0 dimensions, and arrays that are not numpy arrays at all, are not modelled. For example, a Python list passed as `colors` would fail on `.ndim`. The data of 3-D and higher arrays is reduced to its shape.
- Lines and images take 2-D data only, and scatters take 1-D or 2-D data only. The code passes other shapes on unchecked (an `(h, w, 3)` RGB image goes to pygfx as it is), and what pygfx then does is not part of this model.
- `pre_computed` values that are ndarrays are 1-D rows. The only thing checked is their type.
- The `*args, **kwargs` pass-through of the subclass constructors is modelled only for the arguments the base class reads: `colors`, `colors_length`, `cmap` and `alpha`.

=== FILE: graphics.dfy ===
/**
 * The common base of every graphic (`_Graphic`): it keeps the data as float32
 * and resolves the colour specification into a per-datapoint RGBA table.
 */
module Graphics {
  import opened Outcomes
  import opened NdArrays
  import opened Utils

  /** The `colors` argument: `False` (skip colour resolution), `None`, or an array. */
  datatype ColorsArg = NoColors | Unset | Given(arr: NdArray)

  /** A graphic's own state; `colors` stays `None` when resolution was skipped
      or fell through. */
  datatype Graphic = Graphic(data: NdArray, colors: Option<seq<Row>>) {
    /** The base `update_data` does nothing. */
    function UpdateData(newData: NdArray): (g: Graphic)
      ensures g == this
    {
      this
    }
  }

  const White: Row := [1.0, 1.0, 1.0, 1.0]

  /** The default table: `n` opaque white rows stacked together. Stacking
      needs at least one row, so `SetColors` refuses a count of zero first. */
  function WhiteRows(n: nat): (rows: seq<Row>)
    requires n > 0
    ensures |rows| == n
    ensures forall i :: 0 <= i < n ==> rows[i] == White
  {
    if n == 1 then [White] else WhiteRows(n - 1) + [White]
  }

  /** An array the code takes for an RGBA table: two dimensions, four
      columns, and exactly `n` rows. */
  predicate RgbaShaped(a: NdArray, n: nat) {
    a.Ndim() == 2 && a.Shape()[1] == 4 && a.Shape()[0] == n
  }

  /** An array the code takes for colour labels: one dimension of integers. */
  predicate IntegerLabels(a: NdArray) {
    a.Ndim() == 1 && a.dtype == IntegerKind
  }

  lemma TwoDimensionalIsTable(a: NdArray)
    requires a.Valid()
    ensures a.Ndim() == 2 <==> a.Table?
    ensures a.Ndim() == 1 <==> a.Vector?
  {
  }

  /** `_set_colors(colors, colors_length, cmap, alpha)`. `Ok(None)` is the case
      where a colour array and a colormap are both given but the array is not
      1-D integer labels: the code raises nothing and leaves `colors` unset. */
  function SetColors(colors: ColorsArg, n: nat, cmap: Option<string>, alpha: real, u: Collaborators)
    : (r: Result<Option<seq<Row>>>)
    requires !colors.NoColors?
    requires colors.Given? ==> colors.arr.Valid()
    // the final "Unknown color format" branch cannot be reached
    ensures r != Err(UnknownColorFormat)
    // the errors: no rows to stack, a refused colormap, a badly shaped RGBA array
    ensures r.Err? <==>
      || (colors.Unset? && cmap.None? && n == 0)
      || (colors.Unset? && cmap.Some? && u.getColors(n, cmap.value, alpha).None?)
      || (colors.Given? && cmap.None? && !RgbaShaped(colors.arr, n))
      || (colors.Given? && cmap.Some? && IntegerLabels(colors.arr) &&
          u.mapLabelsToColors(colors.arr.elems, cmap.value, alpha).None?)
    ensures colors.Unset? && cmap.None? && n == 0 ==> r == Err(ArrayError(Stack))
    ensures r.Err? && colors.Unset? && cmap.Some? ==> r.fault == HelperRaised(GetColors)
    ensures r.Err? && colors.Given? && cmap.None? ==> r.fault == ColorShape
    ensures r.Err? && colors.Given? && cmap.Some? ==> r.fault == HelperRaised(MapLabelsToColors)
    // the silent fall-through
    ensures r == Ok(None) <==> colors.Given? && cmap.Some? && !IntegerLabels(colors.arr)
    // neither given: n opaque white rows
    ensures colors.Unset? && cmap.None? && n > 0 ==>
      r.Ok? && r.value.Some? && |r.value.value| == n &&
      forall i :: 0 <= i < n ==> r.value.value[i] == White
    // colormap only: n colours sampled from it
    ensures colors.Unset? && cmap.Some? && u.getColors(n, cmap.value, alpha).Some? ==>
      r == Ok(Some(u.getColors(n, cmap.value, alpha).value))
    // explicit RGBA: passed through with its values
    ensures colors.Given? && cmap.None? && RgbaShaped(colors.arr, n) ==>
      r == Ok(Some(colors.arr.m.rows))
    // integer labels with a colormap: one mapped colour per label
    ensures colors.Given? && cmap.Some? && IntegerLabels(colors.arr) &&
            u.mapLabelsToColors(colors.arr.elems, cmap.value, alpha).Some? ==>
      r == Ok(Some(u.mapLabelsToColors(colors.arr.elems, cmap.value, alpha).value))
  {
    if colors.Unset? && cmap.None? then
      if n == 0 then Err(ArrayError(Stack)) else Ok(Some(WhiteRows(n)))
    else if colors.Unset? && cmap.Some? then
      var sampled :- Raised(u.getColors(n, cmap.value, alpha), GetColors);
      Ok(Some(sampled))
    else if colors.Given? && cmap.None? then
      if RgbaShaped(colors.arr, n) then Ok(Some(colors.arr.AsFloat32().m.rows))
      else Err(ColorShape)
    else if colors.Given? && cmap.Some? then
      if IntegerLabels(colors.arr) then
        var mapped :- Raised(u.mapLabelsToColors(colors.arr.elems, cmap.value, alpha), MapLabelsToColors);
        Ok(Some(mapped))
      else Ok(None)
    else
      Err(UnknownColorFormat)
  }

  /** `_Graphic.__init__(data, colors, colors_length, cmap, alpha)`. */
  function NewGraphic(data: NdArray, colors: ColorsArg, colorsLength: Option<nat>, cmap: Option<string>,
                      alpha: real, u: Collaborators): (r: Result<Graphic>)
    requires data.Valid()
    requires colors.Given? ==> colors.arr.Valid()
    ensures r.Ok? ==> r.value.data == data.AsFloat32()
    // `colors=False` skips resolution entirely
    ensures colors.NoColors? ==> r == Ok(Graphic(data.AsFloat32(), None))
    // otherwise resolution runs with colors_length defaulting to the row count
    ensures !colors.NoColors? ==>
      var resolved := SetColors(colors, colorsLength.GetOr(data.Leading()), cmap, alpha, u);
      (r.Ok? <==> resolved.Ok?) &&
      (r.Ok? ==> r.value.colors == resolved.value) &&
      (r.Err? ==> r.fault == resolved.fault)
  {
    var floats := data.AsFloat32();
    var n := colorsLength.GetOr(floats.Leading());
    if colors.NoColors? then Ok(Graphic(floats, None))
    else
      var resolved :- SetColors(colors, n, cmap, alpha, u);
      Ok(Graphic(floats, resolved))
  }

  /** With neither colours nor colormap, a graphic gets one white row per data
      row unless `colors_length` overrides the count; a count of zero leaves
      nothing to stack, which raises. */
  lemma DefaultColorsFollowRowCount(data: NdArray, colorsLength: Option<nat>, alpha: real, u: Collaborators)
    requires data.Valid()
    ensures
      var r := NewGraphic(data, Unset, colorsLength, None, alpha, u);
      var n := if colorsLength.Some? then colorsLength.value else data.Leading();
      && (n == 0 <==> r.Err?)
      && (n == 0 ==> r == Err(ArrayError(Stack)))
      && (r.Ok? ==> r.value.colors.Some? && |r.value.colors.value| == n &&
                    forall i :: 0 <= i < |r.value.colors.value| ==> r.value.colors.value[i] == White)
  {
  }

  /** Under the colormap helpers' documented contract every resolved table has
      RGBA rows, and it has `n` of them except for labels, where it has one per
      label: the code never compares the label count with `colors_length`. */
  lemma ResolvedColorsShape(colors: ColorsArg, n: nat, cmap: Option<string>, alpha: real, u: Collaborators)
    requires ColormapContract(u)
    requires !colors.NoColors?
    requires colors.Given? ==> colors.arr.Valid()
    requires SetColors(colors, n, cmap, alpha, u).Ok?
    requires SetColors(colors, n, cmap, alpha, u).value.Some?
    ensures var t := SetColors(colors, n, cmap, alpha, u).value.value;
      && (forall i :: 0 <= i < |t| ==> |t[i]| == 4)
      && |t| == (if colors.Given? && cmap.Some? then |colors.arr.elems| else n)
  {
    var t := SetColors(colors, n, cmap, alpha, u).value.value;
    if colors.Unset? && cmap.Some? {
      assert t == u.getColors(n, cmap.value, alpha).value;
    } else if colors.Given? && cmap.Some? {
      assert t == u.mapLabelsToColors(colors.arr.elems, cmap.value, alpha).value;
    } else if colors.Given? {
      TwoDimensionalIsTable(colors.arr);
    }
  }

  /** `_set_colors(None, 3, None, 1.0)` is three opaque white rows. */
  lemma ThreeWhiteRows(u: Collaborators)
    ensures SetColors(Unset, 3, None, 1.0, u) == Ok(Some([White, White, White]))
  {
    var t := SetColors(Unset, 3, None, 1.0, u).value.value;
    assert t == [t[0], t[1], t[2]];
  }
}

=== FILE: histogram.dfy ===
/**
 * `Histogram`: bars drawn as flat meshes, one per bin, laid out along x in
 * the drawing range `[0, draw_scale_factor]`. Arithmetic is exact (`real`);
 * the code's float32 casts are not modelled.
 */
module Histograms {
  import opened Outcomes
  import opened NdArrays
  import opened Utils
  import opened Graphics

  /** A value of the `pre_computed` dictionary: exactly a `numpy.ndarray`
      (modelled as 1-D), or anything else. */
  datatype Value = NdarrayValue(items: Row) | OtherValue

  datatype Vec3 = Vec3(x: real, y: real, z: real)

  /** One bar: a flat plane mesh of the given width and height, centred at `position`. */
  datatype Mesh = Mesh(width: real, height: real, position: Vec3)

  /** The bin counts and edges, the base graphic, and the children of the group. */
  datatype Histogram = Histogram(hist: Row, binEdges: Row, graphic: Graphic, meshes: seq<Mesh>)

  const HistKeys: set<string> := {"hist", "bin_edges"}

  /** The checks on `pre_computed`: keys first, then value types. */
  function Precomputed(pre: map<string, Value>): (r: Result<(Row, Row)>)
    ensures pre.Keys != HistKeys ==> r == Err(PrecomputedKeys)
    ensures pre.Keys == HistKeys && (exists k :: k in pre && pre[k].OtherValue?) ==> r == Err(PrecomputedValues)
    ensures r.Ok? <==> pre.Keys == HistKeys && forall k :: k in pre ==> pre[k].NdarrayValue?
    ensures r.Ok? ==> r.value == (pre["hist"].items, pre["bin_edges"].items)
  {
    if pre.Keys != HistKeys then Err(PrecomputedKeys)
    else if !(forall k :: k in pre ==> pre[k].NdarrayValue?) then Err(PrecomputedValues)
    else Ok((pre["hist"].items, pre["bin_edges"].items))
  }

  /** The counts and edges: from the precomputed dictionary when one is
      given, without looking at `data`; otherwise from `np.histogram`, which
      raises when there is no data or when it cannot bin what it is given. */
  function Binned(data: Option<Row>, bins: Bins, pre: Option<map<string, Value>>, u: Collaborators)
    : (r: Result<(Row, Row)>)
    ensures pre.Some? ==> r == Precomputed(pre.value)
    ensures pre.None? && data.None? ==> r == Err(ArrayError(NotAnArray))
    ensures pre.None? && data.Some? ==>
      && (r.Ok? <==> u.histogram(data.value, bins).Some?)
      && (r.Ok? ==> r.value == u.histogram(data.value, bins).value)
      && (r.Err? ==> r.fault == HelperRaised(NumpyHistogram))
  {
    match pre
    case Some(d) => Precomputed(d)
    case None =>
      if data.None? then Err(ArrayError(NotAnArray))
      else Raised(u.histogram(data.value, bins), NumpyHistogram)
  }

  function MinOf(s: Row): (m: real)
    requires |s| > 0
    ensures m in s && forall i :: 0 <= i < |s| ==> m <= s[i]
  {
    if |s| == 1 then s[0]
    else var rest := MinOf(s[1..]); if s[0] <= rest then s[0] else rest
  }

  function MaxOf(s: Row): (m: real)
    requires |s| > 0
    ensures m in s && forall i :: 0 <= i < |s| ==> s[i] <= m
  {
    if |s| == 1 then s[0]
    else var rest := MaxOf(s[1..]); if s[0] >= rest then s[0] else rest
  }

  /** `np.ptp`: the spread from the smallest to the largest value. */
  function Ptp(s: Row): (p: real)
    requires |s| > 0
    ensures p >= 0.0
  {
    MaxOf(s) - MinOf(s)
  }

  /** Edges the layout can divide by: at least one bin and a positive spread. */
  predicate Drawable(edges: Row) {
    |edges| >= 2 && Ptp(edges) > 0.0
  }

  /** One edge mapped linearly from `[lo, lo + span]` onto `[0, scale]`. */
  function Rescale(e: real, lo: real, span: real, scale: real): real
    requires span > 0.0
  {
    (e - lo) / span * scale
  }

  /** Every edge shifted by the smallest one, divided by the spread, and
      multiplied by the draw scale factor. */
  function ScaleEdges(edges: Row, scale: real): (scaled: Row)
    requires Drawable(edges)
    ensures |scaled| == |edges|
  {
    var lo, span := MinOf(edges), Ptp(edges);
    seq(|edges|, i requires 0 <= i < |edges| => Rescale(edges[i], lo, span, scale))
  }

  /** Each left edge shifted by half the second scaled edge, which for edges
      starting at 0 is half a bin: one centre per bin. */
  function Centers(scaled: Row): (xs: Row)
    requires |scaled| >= 2
    ensures |xs| == |scaled| - 1
    // all centres sit the same distance past their left edges
    ensures forall j, k :: 0 <= j < |xs| && 0 <= k < |xs| ==> xs[k] - xs[j] == scaled[k] - scaled[j]
  {
    seq(|scaled| - 1, k requires 0 <= k < |scaled| - 1 => scaled[k] + scaled[1] / 2.0)
  }

  /** The width of every bar: an equal share of the draw range per bin, times
      the bar-width factor. */
  function BinWidth(scale: real, nBins: nat, widthScale: real): (w: real)
    requires nBins > 0
    // the bars side by side cover the draw range times the width factor
    ensures nBins as real * w == scale * widthScale
  {
    (scale / nBins as real) * widthScale
  }

  /** The edges actually used divide cleanly when there are two or more of
      them: their spread is positive. Fewer than two edges raise before the
      division matters. */
  predicate EdgesUsable(data: Option<Row>, bins: Bins, pre: Option<map<string, Value>>, u: Collaborators) {
    var b := Binned(data, bins, pre, u);
    b.Ok? && |b.value.1| >= 2 ==> Drawable(b.value.1)
  }

  /** The scene part of `Histogram.__init__`, once the counts and edges are
      known: `np.vstack` raises when the counts and centres differ in length,
      and the base class resolves one colour per bin. */
  function Layout(hist: Row, edges: Row, colors: ColorsArg, scale: real, widthScale: real, u: Collaborators)
    : (r: Result<Histogram>)
    requires Drawable(edges)
    requires colors.Given? ==> colors.arr.Valid()
    ensures r.Ok? <==> (|hist| == |edges| - 1 &&
      NewGraphic(Table(FloatKind, Matrix([Centers(ScaleEdges(edges, scale)), hist], |hist|)),
                 colors, Some(|hist|), None, 1.0, u).Ok?)
    ensures |hist| != |edges| - 1 ==> r == Err(ArrayError(Stack))
    ensures r.Ok? ==>
      var h := r.value;
      var n := |edges| - 1;
      var xs := Centers(ScaleEdges(edges, scale));
      && h.hist == hist && h.binEdges == edges
      && |h.meshes| == n
      && (forall k :: 0 <= k < n ==>
            h.meshes[k] == Mesh(BinWidth(scale, n, widthScale), hist[k], Vec3(xs[k], hist[k] / 2.0, 0.0)))
      && h.graphic.data == Table(FloatKind, Matrix([xs, hist], n))
    // the colour count is the bin count, not the sample count
    ensures r.Ok? && colors.Unset? ==> r.value.graphic.colors == Some(WhiteRows(|edges| - 1))
  {
    var xs := Centers(ScaleEdges(edges, scale));
    var n := |xs|;
    var width := BinWidth(scale, n, widthScale);
    if |hist| != n then Err(ArrayError(Stack))
    else
      var stacked := Matrix([xs, hist], n);
      var g :- NewGraphic(Table(FloatKind, stacked), colors, Some(n), None, 1.0, u);
      Ok(Histogram(hist, edges, g,
                   seq(n, k requires 0 <= k < n => Mesh(width, hist[k], Vec3(xs[k], hist[k] / 2.0, 0.0)))))
  }

  /** `Histogram.__init__(data, bins, pre_computed, colors, draw_scale_factor,
      draw_bin_width_scale)`. Both `pre_computed` checks come before any scene
      object is made. */
  function NewHistogram(data: Option<Row>, bins: Bins, pre: Option<map<string, Value>>, colors: ColorsArg,
                        scale: real, widthScale: real, u: Collaborators): (r: Result<Histogram>)
    requires EdgesUsable(data, bins, pre, u)
    requires colors.Given? ==> colors.arr.Valid()
    ensures pre.Some? && pre.value.Keys != HistKeys ==> r == Err(PrecomputedKeys)
    ensures pre.Some? && pre.value.Keys == HistKeys && (exists k :: k in pre.value && pre.value[k].OtherValue?) ==>
      r == Err(PrecomputedValues)
    ensures Binned(data, bins, pre, u).Err? ==> r == Err(Binned(data, bins, pre, u).fault)
    // the minimum of no edges raises; one edge has no second scaled edge
    ensures Binned(data, bins, pre, u).Ok? && |Binned(data, bins, pre, u).value.1| == 0 ==>
      r == Err(ArrayError(EmptyReduction))
    ensures Binned(data, bins, pre, u).Ok? && |Binned(data, bins, pre, u).value.1| == 1 ==>
      r == Err(ArrayError(IndexRange))
    ensures Binned(data, bins, pre, u).Ok? && |Binned(data, bins, pre, u).value.1| >= 2 ==>
      var (hist, edges) := Binned(data, bins, pre, u).value;
      Drawable(edges) && r == Layout(hist, edges, colors, scale, widthScale, u)
  {
    var pair :- Binned(data, bins, pre, u);
    var (hist, edges) := pair;
    if |edges| == 0 then Err(ArrayError(EmptyReduction))
    else if |edges| == 1 then Err(ArrayError(IndexRange))
    else Layout(hist, edges, colors, scale, widthScale, u)
  }

  /** A dictionary with only a 'hist' entry is refused before anything is built. */
  lemma OnlyHistKeyRejected(data: Option<Row>, bins: Bins, v: Value, colors: ColorsArg,
                            scale: real, widthScale: real, u: Collaborators)
    requires colors.Given? ==> colors.arr.Valid()
    ensures EdgesUsable(data, bins, Some(map["hist" := v]), u)
    ensures NewHistogram(data, bins, Some(map["hist" := v]), colors, scale, widthScale, u) == Err(PrecomputedKeys)
  {
    assert "bin_edges" in HistKeys;
  }

  lemma FractionInUnitRange(a: real, p: real)
    requires p > 0.0 && 0.0 <= a <= p
    ensures 0.0 <= a / p <= 1.0
    ensures a == p ==> a / p == 1.0
  {
  }

  lemma ScaledFractionInRange(f: real, scale: real)
    requires 0.0 <= f <= 1.0 && scale >= 0.0
    ensures 0.0 <= f * scale <= scale
  {
    assert (1.0 - f) * scale >= 0.0;
  }

  lemma ScaledSign(d: real, p: real, scale: real)
    requires p > 0.0 && scale > 0.0
    ensures d > 0.0 <==> d / p * scale > 0.0
  {
    if d > 0.0 {
      assert d / p > 0.0;
    } else {
      assert d / p <= 0.0;
      assert -(d / p) * scale >= 0.0;
    }
  }

  lemma ScaledEdgeAt(edges: Row, scale: real, i: nat)
    requires Drawable(edges) && i < |edges|
    ensures ScaleEdges(edges, scale)[i] == Rescale(edges[i], MinOf(edges), Ptp(edges), scale)
    ensures 0.0 <= edges[i] - MinOf(edges) <= Ptp(edges)
    ensures edges[i] == MaxOf(edges) ==> edges[i] - MinOf(edges) == Ptp(edges)
  {
  }

  lemma RescaleInRange(e: real, lo: real, span: real, scale: real)
    requires span > 0.0 && 0.0 <= e - lo <= span
    ensures e == lo ==> Rescale(e, lo, span, scale) == 0.0
    ensures e - lo == span ==> Rescale(e, lo, span, scale) == scale
    ensures scale >= 0.0 ==> 0.0 <= Rescale(e, lo, span, scale) <= scale
  {
    var f := (e - lo) / span;
    FractionInUnitRange(e - lo, span);
    if scale >= 0.0 {
      ScaledFractionInRange(f, scale);
    }
  }

  /** Rescaling maps the smallest edge to 0, the largest to the scale factor,
      and, for a non-negative scale factor, every edge into `[0, scale]`. */
  lemma ScaledEdgesSpanDrawRange(edges: Row, scale: real)
    requires Drawable(edges)
    ensures var scaled := ScaleEdges(edges, scale);
      && (forall i :: 0 <= i < |edges| && edges[i] == MinOf(edges) ==> scaled[i] == 0.0)
      && (forall i :: 0 <= i < |edges| && edges[i] == MaxOf(edges) ==> scaled[i] == scale)
      && (scale >= 0.0 ==> forall i :: 0 <= i < |edges| ==> 0.0 <= scaled[i] <= scale)
  {
    var scaled := ScaleEdges(edges, scale);
    forall i | 0 <= i < |edges|
      ensures edges[i] == MinOf(edges) ==> scaled[i] == 0.0
      ensures edges[i] == MaxOf(edges) ==> scaled[i] == scale
      ensures scale >= 0.0 ==> 0.0 <= scaled[i] <= scale
    {
      ScaledEdgeAt(edges, scale, i);
      RescaleInRange(edges[i], MinOf(edges), Ptp(edges), scale);
    }
  }

  /** Centres differ exactly as the scaled edges do, so with a positive scale
      factor they come in the order of the edges. */
  lemma CentersFollowEdgeOrder(edges: Row, scale: real, j: nat, k: nat)
    requires Drawable(edges)
    requires scale > 0.0
    requires j < |edges| - 1 && k < |edges| - 1
    ensures var xs := Centers(ScaleEdges(edges, scale));
      edges[j] < edges[k] <==> xs[j] < xs[k]
  {
    var scaled := ScaleEdges(edges, scale);
    ScaledEdgeAt(edges, scale, j);
    ScaledEdgeAt(edges, scale, k);
    RescaleMonotone(edges[j], edges[k], MinOf(edges), Ptp(edges), scale);
  }

  /** With a positive scale factor, rescaling keeps the order of two edges. */
  lemma RescaleMonotone(a: real, b: real, lo: real, span: real, scale: real)
    requires span > 0.0 && scale > 0.0
    ensures a < b <==> Rescale(a, lo, span, scale) < Rescale(b, lo, span, scale)
  {
    DifferenceOfScaled(b - lo, a - lo, span, scale);
    ScaledSign(b - a, span, scale);
  }

  lemma DifferenceOfScaled(a: real, b: real, p: real, scale: real)
    requires p > 0.0
    ensures a / p * scale - b / p * scale == (a - b) / p * scale
  {
  }

  /** The width of bin `i` before rescaling. */
  function Gap(edges: Row, i: nat): real
    requires i + 1 < |edges|
  {
    edges[i + 1] - edges[i]
  }

  /** Evenly spaced edges, as from a binning with a fixed bin count. */
  ghost predicate EvenlySpaced(edges: Row) {
    |edges| >= 2 && edges[1] > edges[0] &&
    forall i: nat :: i + 1 < |edges| ==> Gap(edges, i) == edges[1] - edges[0]
  }

  /** `i` steps of width `step`, laid end to end. */
  function Steps(i: nat, step: real): real {
    if i == 0 then 0.0 else Steps(i - 1, step) + step
  }

  lemma {:induction false} StepsIsProduct(i: nat, step: real)
    ensures Steps(i, step) == (i as real) * step
  {
    if i > 0 {
      StepsIsProduct(i - 1, step);
      assert (i as real) * step == ((i - 1) as real) * step + step;
    }
  }

  lemma {:induction false} StepsGrow(i: nat, j: nat, step: real)
    requires i <= j && step > 0.0
    ensures 0.0 <= Steps(i, step) <= Steps(j, step)
    ensures i < j ==> Steps(i, step) < Steps(j, step)
    decreases j, i
  {
    if i < j {
      StepsGrow(i, j - 1, step);
    } else if i > 0 {
      StepsGrow(0, i, step);
    }
  }

  /** Edge `i` lies `i` steps above the first. */
  lemma {:induction false} EvenEdgeOffset(edges: Row, i: nat)
    requires EvenlySpaced(edges)
    requires i < |edges|
    ensures edges[i] == edges[0] + Steps(i, edges[1] - edges[0])
    decreases i
  {
    if i > 0 {
      EvenEdgeOffset(edges, i - 1);
      assert Gap(edges, i - 1) == edges[1] - edges[0];
    }
  }

  /** Values bounded by the first and last entries have those as their
      minimum and maximum. */
  lemma ExtremesAtEnds(s: Row)
    requires |s| > 0
    requires forall i :: 0 <= i < |s| ==> s[0] <= s[i] <= s[|s| - 1]
    ensures MinOf(s) == s[0] && MaxOf(s) == s[|s| - 1]
  {
    var lo, hi := MinOf(s), MaxOf(s);
    assert lo == s[0] by {
      var j :| 0 <= j < |s| && s[j] == lo;
    }
    assert hi == s[|s| - 1] by {
      var j :| 0 <= j < |s| && s[j] == hi;
    }
  }

  /** Evenly spaced edges rise from the first to the last. */
  lemma EvenEdgesRise(edges: Row)
    requires EvenlySpaced(edges)
    ensures forall i :: 0 <= i < |edges| ==> edges[0] <= edges[i] <= edges[|edges| - 1]
    ensures edges[|edges| - 1] - edges[0] == Steps(|edges| - 1, edges[1] - edges[0])
    ensures edges[|edges| - 1] - edges[0] > 0.0
  {
    var n := |edges| - 1;
    EvenEdgeOffset(edges, n);
    forall i | 0 <= i < |edges|
      ensures edges[0] <= edges[i] <= edges[n]
    {
      EvenEdgeOffset(edges, i);
      StepsGrow(i, n, edges[1] - edges[0]);
    }
    StepsGrow(0, n, edges[1] - edges[0]);
  }

  /** So their spread is `n` steps, and they can be drawn. */
  lemma EvenEdgesSpan(edges: Row)
    requires EvenlySpaced(edges)
    ensures Drawable(edges)
    ensures MinOf(edges) == edges[0]
    ensures Ptp(edges) == Steps(|edges| - 1, edges[1] - edges[0])
  {
    EvenEdgesRise(edges);
    ExtremesAtEnds(edges);
  }

  /** The arithmetic of an even layout: bin `k` starts `a` above the first
      edge and ends one step further, and the `n` bins span `n` steps. */
  lemma EvenRescale(lo: real, e1: real, ek: real, ek1: real, a: real, span: real, n: nat, step: real, scale: real)
    requires n > 0 && step > 0.0
    requires span == Steps(n, step)
    requires e1 - lo == step && ek - lo == a && ek1 - lo == a + step
    ensures span > 0.0
    ensures Rescale(ek1, lo, span, scale) == Rescale(ek, lo, span, scale) + Rescale(e1, lo, span, scale)
    ensures BinWidth(scale, n, 1.0) == Rescale(e1, lo, span, scale)
  {
    StepsGrow(0, n, step);
    StepsIsProduct(n, step);
    assert (a + step) / span * scale == a / span * scale + step / span * scale;
    assert step / span == 1.0 / (n as real);
  }

  /** The rescaled edges around bin `k` of evenly spaced edges: the first bin
      is as wide as bin `k`. */
  lemma EvenScaledBin(edges: Row, scale: real, k: nat)
    requires EvenlySpaced(edges)
    requires k < |edges| - 1
    ensures Drawable(edges)
    ensures var scaled := ScaleEdges(edges, scale);
      && scaled[k + 1] == scaled[k] + scaled[1]
      && BinWidth(scale, |edges| - 1, 1.0) == scaled[1]
  {
    var step := edges[1] - edges[0];
    EvenEdgeOffset(edges, k);
    EvenEdgeOffset(edges, k + 1);
    EvenEdgesSpan(edges);
    EvenRescale(edges[0], edges[1], edges[k], edges[k + 1], Steps(k, step), Ptp(edges), |edges| - 1, step, scale);
    ScaledEdgeAt(edges, scale, 1);
    ScaledEdgeAt(edges, scale, k);
    ScaledEdgeAt(edges, scale, k + 1);
  }

  /** For evenly spaced edges, each centre is the midpoint of its bin, and a
      bin width scale of 1 makes the bars exactly as wide as the bins. */
  lemma EvenBinsCenteredAndAdjacent(edges: Row, scale: real, k: nat)
    requires EvenlySpaced(edges)
    requires k < |edges| - 1
    ensures Drawable(edges)
    ensures var scaled := ScaleEdges(edges, scale);
      && Centers(scaled)[k] == (scaled[k] + scaled[k + 1]) / 2.0
      && BinWidth(scale, |edges| - 1, 1.0) == scaled[k + 1] - scaled[k]
  {
    EvenScaledBin(edges, scale, k);
  }
}

=== FILE: image.dfy ===
/**
 * `Image`: a 2-D array shown through a colormap. The texture is built on the
 * graphic's own float32 array, so the two are one buffer: writing the texture
 * writes the graphic's data. The material holds the intensity bounds (`clim`)
 * and the colormap's lookup table.
 */
module Images {
  import opened Outcomes
  import opened NdArrays
  import opened Utils
  import opened Graphics

  /** The basic image material: intensity bounds and the colormap texture,
      represented by its lookup table of colours. */
  datatype ImageMaterial = ImageMaterial(clim: (real, real), lookup: seq<Row>)

  /** The scene object: a texture view over the grid, with its sampling filter. */
  datatype ImageObject = ImageObject(grid: Matrix, filter: string, material: ImageMaterial)

  datatype Image = Image(graphic: Graphic, world: ImageObject) {
    /** The `clim` getter reads the material. */
    function Clim(): (real, real) {
      world.material.clim
    }

    /** The `clim` setter writes the material and nothing else. */
    function WithClim(levels: (real, real)): (img: Image)
      ensures img.Clim() == levels
      ensures img.graphic == graphic
      ensures img.world.grid == world.grid && img.world.filter == world.filter
      ensures img.world.material.lookup == world.material.lookup
    {
      this.(world := world.(material := world.material.(clim := levels)))
    }
  }

  /** The graphic's data and the texture are the same float32 buffer. */
  predicate SharesData(img: Image) {
    img.graphic.data == Table(FloatKind, img.world.grid)
  }

  /** The intensity bounds `Image.__init__` uses: the given pair when both are
      given, otherwise both from `quick_min_max(data)`. */
  function Bounds(data: Matrix, vmin: Option<real>, vmax: Option<real>, u: Collaborators): (b: (real, real))
    ensures vmin.Some? && vmax.Some? ==> b == (vmin.value, vmax.value)
    ensures vmin.None? || vmax.None? ==> b == u.quickMinMax(data)
  {
    if vmin.None? || vmax.None? then u.quickMinMax(data) else (vmin.value, vmax.value)
  }

  /** `Image.__init__(data, vmin, vmax, cmap, filter, ...)`. The base class
      sees `cmap`, so without explicit colours it samples one colour per data
      row from the colormap; the colormap texture is looked up last. The
      `filter` argument is not used: the texture view is always made with
      'nearest'. */
  function NewImage(data: Matrix, vmin: Option<real>, vmax: Option<real>, cmap: string, filter: string,
                    colors: ColorsArg, colorsLength: Option<nat>, alpha: real, u: Collaborators)
    : (r: Result<Image>)
    requires data.Valid()
    requires colors.Given? ==> colors.arr.Valid()
    ensures var g := NewGraphic(Table(FloatKind, data), colors, colorsLength, Some(cmap), alpha, u);
      && (r.Ok? <==> g.Ok? && u.cmapTexture(cmap).Some?)
      && (g.Err? ==> r == Err(g.fault))
      && (g.Ok? && u.cmapTexture(cmap).None? ==> r == Err(HelperRaised(CmapTexture)))
      && (r.Ok? ==> r.value.graphic == g.value)
    ensures r.Ok? ==> r.value.world.grid == data && SharesData(r.value)
    ensures r.Ok? ==> r.value.world.filter == "nearest"
    ensures r.Ok? ==> r.value.world.material.lookup == u.cmapTexture(cmap).value
    // a mixed pair is never kept: both given, or both computed
    ensures r.Ok? && vmin.Some? && vmax.Some? ==> r.value.Clim() == (vmin.value, vmax.value)
    ensures r.Ok? && (vmin.None? || vmax.None?) ==> r.value.Clim() == u.quickMinMax(data)
  {
    var g :- NewGraphic(Table(FloatKind, data), colors, colorsLength, Some(cmap), alpha, u);
    var bounds := Bounds(data, vmin, vmax, u);
    var lut :- Raised(u.cmapTexture(cmap), CmapTexture);
    Ok(Image(g, ImageObject(g.data.m, "nearest", ImageMaterial(bounds, lut))))
  }

  /** Without explicit colours, an image gets one colour sampled from its
      colormap per image row, each an RGBA row. */
  lemma ImageColorsPerRow(data: Matrix, vmin: Option<real>, vmax: Option<real>, cmap: string, filter: string,
                          alpha: real, u: Collaborators)
    requires data.Valid()
    requires ColormapContract(u)
    requires NewImage(data, vmin, vmax, cmap, filter, Unset, None, alpha, u).Ok?
    ensures var img := NewImage(data, vmin, vmax, cmap, filter, Unset, None, alpha, u).value;
      && img.graphic.colors.Some?
      && |img.graphic.colors.value| == data.Height()
      && forall i :: 0 <= i < data.Height() ==> |img.graphic.colors.value[i]| == 4
  {
    ResolvedColorsShape(Unset, data.Height(), Some(cmap), alpha, u);
  }

  /** `Image.update_data`: the texture buffer is overwritten in place with the
      new array (broadcast as numpy does). The texture is the graphic's own
      array, so the graphic's data follows; nothing else changes. */
  function UpdateData(img: Image, data: Matrix): (r: Result<Image>)
    requires data.Valid()
    ensures r.Ok? <==> Broadcasts(data, img.world.grid)
    ensures r.Err? ==> r == Err(ArrayError(Broadcast))
    ensures r.Ok? ==>
      && SharesData(r.value)
      && r.value.graphic == img.graphic.(data := Table(FloatKind, r.value.world.grid))
      && r.value.world.material == img.world.material
      && r.value.world.filter == img.world.filter
      && r.value.world.grid.Height() == img.world.grid.Height()
      && r.value.world.grid.width == img.world.grid.width
    ensures data.Height() == img.world.grid.Height() && data.width == img.world.grid.width ==>
      r == Ok(Image(img.graphic.(data := Table(FloatKind, data)), img.world.(grid := data)))
    ensures r.Ok? ==>
      var before := img.world.grid;
      r.value.world.grid == Matrix(BroadcastRows(data, before.Height(), before.width), before.width)
  {
    var grid :- SliceAssign(img.world.grid, data);
    Ok(Image(img.graphic.(data := Table(FloatKind, grid)), img.world.(grid := grid)))
  }

  /** Updating twice with the same array leaves what one update leaves. */
  lemma UpdateDataIdempotent(img: Image, data: Matrix)
    requires data.Valid()
    requires UpdateData(img, data).Ok?
    ensures UpdateData(UpdateData(img, data).value, data) == UpdateData(img, data)
  {
    SliceAssignIdempotent(img.world.grid, data);
  }

  /** A run of `update_data` calls, stopping at the first that raises. */
  function UpdateAll(img: Image, updates: seq<Matrix>): Result<Image>
    requires forall k :: 0 <= k < |updates| ==> updates[k].Valid()
    decreases |updates|
  {
    if |updates| == 0 then Ok(img)
    else
      var next :- UpdateData(img, updates[0]);
      UpdateAll(next, updates[1..])
  }

  /** However many updates run, the bounds chosen at construction, the
      colormap and the colours stay, the grid keeps its shape, and the graphic
      keeps sharing the texture's buffer: only the `clim` setter moves the
      bounds. */
  lemma {:induction false} UpdatesKeepBounds(img: Image, updates: seq<Matrix>)
    requires forall k :: 0 <= k < |updates| ==> updates[k].Valid()
    requires SharesData(img)
    requires UpdateAll(img, updates).Ok?
    ensures var after := UpdateAll(img, updates).value;
      && after.Clim() == img.Clim()
      && after.world.material == img.world.material
      && after.graphic.colors == img.graphic.colors
      && after.world.grid.Height() == img.world.grid.Height()
      && after.world.grid.width == img.world.grid.width
      && SharesData(after)
    decreases |updates|
  {
    if |updates| > 0 {
      var next := UpdateData(img, updates[0]).value;
      UpdatesKeepBounds(next, updates[1..]);
    }
  }

  /** Reading `clim` back after setting it gives the levels that were set. */
  lemma ClimRoundTrip(img: Image, levels: (real, real))
    ensures img.WithClim(levels).Clim() == levels
    ensures img.WithClim(img.Clim()) == img
  {
  }
}

=== FILE: line.dfy ===
/**
 * `Line`: a polyline whose vertices are the data rows, coloured per vertex.
 */
module Lines {
  import opened Outcomes
  import opened NdArrays
  import opened Utils
  import opened Graphics

  /** The two line materials: the thin one and the thick one. */
  datatype LineKind = Thin | Thick

  datatype LineMaterial = LineMaterial(kind: LineKind, thickness: real, vertexColors: bool)

  /** The line scene object: vertex positions, per-vertex colours, and the material. */
  datatype LineObject = LineObject(positions: Matrix, colors: Option<seq<Row>>, material: LineMaterial)

  datatype Line = Line(graphic: Graphic, world: LineObject)

  /** The thin material below a size of 1.1, the thick one from there on. */
  function MaterialFor(size: real): (m: LineMaterial)
    ensures m.kind == Thin <==> size < 1.1
    ensures m.thickness == size && m.vertexColors
  {
    LineMaterial(if size < 1.1 then Thin else Thick, size, true)
  }

  /** `Line.__init__(data, size, colors, cmap, ...)`. The geometry's positions
      are the graphic's float32 data and its colours the resolved table. */
  function NewLine(data: Matrix, size: real, colors: ColorsArg, cmap: Option<string>,
                   colorsLength: Option<nat>, alpha: real, u: Collaborators): (r: Result<Line>)
    requires data.Valid()
    requires colors.Given? ==> colors.arr.Valid()
    ensures var g := NewGraphic(Table(FloatKind, data), colors, colorsLength, cmap, alpha, u);
      (r.Ok? <==> g.Ok?) && (r.Err? ==> r.fault == g.fault) && (r.Ok? ==> r.value.graphic == g.value)
    ensures r.Ok? ==> r.value.world.positions == data
    ensures r.Ok? ==> r.value.world.colors == r.value.graphic.colors
    ensures r.Ok? ==> (r.value.world.material.kind == Thin <==> size < 1.1)
    ensures r.Ok? ==> r.value.world.material.thickness == size && r.value.world.material.vertexColors
  {
    var g :- NewGraphic(Table(FloatKind, data), colors, colorsLength, cmap, alpha, u);
    Ok(Line(g, LineObject(g.data.m, g.colors, MaterialFor(size))))
  }

  /** Without colour labels, a line carries one RGBA colour per vertex, which
      is what per-vertex colouring draws with: white or sampled from the
      colormap when no colours are given, passed through when they are. */
  lemma LineColorsPerVertex(data: Matrix, size: real, colors: ColorsArg, cmap: Option<string>,
                            alpha: real, u: Collaborators)
    requires data.Valid()
    requires colors.Given? ==> colors.arr.Valid()
    requires ColormapContract(u)
    requires colors.Unset? || (colors.Given? && cmap.None?)
    requires NewLine(data, size, colors, cmap, None, alpha, u).Ok?
    ensures var l := NewLine(data, size, colors, cmap, None, alpha, u).value;
      && l.world.colors.Some?
      && |l.world.colors.value| == l.world.positions.Height()
      && forall i :: 0 <= i < |l.world.colors.value| ==> |l.world.colors.value[i]| == 4
  {
    ResolvedColorsShape(colors, data.Height(), cmap, alpha, u);
  }

  /** What `Line.update_data` leaves behind: the line, and the exception it
      raised, if any. `self.data` is replaced before the buffer is written, so
      it is replaced even when the write raises. */
  datatype Updated = Updated(line: Line, raised: Option<Fault>)

  /** `Line.update_data`: the whole position buffer is overwritten with the
      new data. */
  function UpdateData(l: Line, data: Matrix): (r: Updated)
    requires data.Valid()
    ensures r.line.graphic == l.graphic.(data := Table(FloatKind, data))
    ensures r.line.world.colors == l.world.colors && r.line.world.material == l.world.material
    ensures r.raised.Some? <==> !Broadcasts(data, l.world.positions)
    ensures r.raised.Some? ==> r.line.world == l.world
    ensures r.raised.None? ==>
      r.line.world.positions.Height() == l.world.positions.Height() &&
      r.line.world.positions.width == l.world.positions.width
    ensures data.Height() == l.world.positions.Height() && data.width == l.world.positions.width ==>
      r.raised.None? && r.line.world.positions == data
    ensures r.raised.None? ==>
      var before := l.world.positions;
      r.line.world.positions == Matrix(BroadcastRows(data, before.Height(), before.width), before.width)
  {
    var floats := Table(FloatKind, data);
    var replaced := l.(graphic := l.graphic.(data := floats));
    match SliceAssign(l.world.positions, floats.m)
    case Ok(positions) => Updated(replaced.(world := l.world.(positions := positions)), None)
    case Err(fault) => Updated(replaced, Some(fault))
  }

  /** Updating twice with the same data leaves what one update leaves. */
  lemma UpdateDataIdempotent(l: Line, data: Matrix)
    requires data.Valid()
    requires UpdateData(l, data).raised.None?
    ensures UpdateData(UpdateData(l, data).line, data) == UpdateData(l, data)
  {
    SliceAssignIdempotent(l.world.positions, data);
  }
}

=== FILE: ndarrays.dfy ===
/**
 * The slice of numpy the graphics code relies on: arrays by shape, the
 * `astype(np.float32)` conversion, boolean-mask indexing along the first axis
 * (`a[mask]`) and whole-array slice assignment with broadcasting (`a[:] = b`).
 *
 * Numbers are Dafny `real`s: float32 rounding is not modelled, so a cast to
 * float32 keeps every value.
 */
module NdArrays {
  import opened Outcomes

  type Row = seq<real>

  /** A 2-D array as its rows plus its column count; the count is kept apart so
      that an array of shape (0, w) still has a width. */
  datatype Matrix = Matrix(rows: seq<Row>, width: nat) {
    predicate Valid() {
      forall i :: 0 <= i < |rows| ==> |rows[i]| == width
    }

    function Height(): nat {
      |rows|
    }
  }

  /** Only whether the element type is an integer type matters here. */
  datatype DType = IntegerKind | FloatKind

  /** An array of any dimension. `Other` stands for ndim >= 3, whose contents
      the graphics code never inspects; zero-dimensional arrays are not modelled. */
  datatype NdArray =
    | Vector(dtype: DType, elems: Row)
    | Table(dtype: DType, m: Matrix)
    | Other(dtype: DType, shape: seq<nat>)
  {
    predicate Valid() {
      match this
      case Vector(_, _) => true
      case Table(_, m) => m.Valid()
      case Other(_, shape) => |shape| >= 3
    }

    /** `shape`. */
    function Shape(): seq<nat> {
      match this
      case Vector(_, elems) => [|elems|]
      case Table(_, m) => [m.Height(), m.width]
      case Other(_, shape) => shape
    }

    function Ndim(): nat {
      |Shape()|
    }

    /** `shape[0]`, the extent of the first axis. */
    function Leading(): nat
      requires Valid()
    {
      Shape()[0]
    }

    /** `astype(np.float32)`: same shape and values, floating dtype. */
    function AsFloat32(): (a: NdArray)
      ensures a.dtype == FloatKind
      ensures a.Shape() == Shape()
      ensures Valid() ==> a.Valid()
      ensures Vector? ==> a.Vector? && a.elems == elems
      ensures Table? ==> a.Table? && a.m == m
      ensures Other? ==> a.Other?
    {
      match this
      case Vector(_, elems) => Vector(FloatKind, elems)
      case Table(_, m) => Table(FloatKind, m)
      case Other(_, shape) => Other(FloatKind, shape)
    }
  }

  /** The row-wise equality mask: which rows of `colors` equal `color` in every column. */
  function Mask(colors: seq<Row>, color: Row): (mask: seq<bool>)
    ensures |mask| == |colors|
    ensures forall i :: 0 <= i < |colors| ==> (mask[i] <==> colors[i] == color)
  {
    seq(|colors|, i requires 0 <= i < |colors| => colors[i] == color)
  }

  /** The positions where `mask` holds, in increasing order (`np.nonzero`). */
  function TrueIndices(mask: seq<bool>): (idx: seq<nat>)
    ensures forall k :: 0 <= k < |idx| ==> idx[k] < |mask| && mask[idx[k]]
    ensures forall k, l :: 0 <= k < l < |idx| ==> idx[k] < idx[l]
    ensures forall i :: 0 <= i < |mask| && mask[i] ==> i in idx
    decreases |mask|
  {
    if |mask| == 0 then []
    else TrueIndices(mask[..|mask| - 1]) + (if mask[|mask| - 1] then [|mask| - 1] else [])
  }

  /** `items[mask]` along the first axis, for a mask as long as that axis. */
  function BoolIndex<T>(items: seq<T>, mask: seq<bool>): (picked: seq<T>)
    requires |items| == |mask|
    ensures |picked| == |TrueIndices(mask)|
    ensures forall k :: 0 <= k < |picked| ==> picked[k] == items[TrueIndices(mask)[k]]
    decreases |items|
  {
    if |items| == 0 then []
    else
      var n := |items| - 1;
      BoolIndex(items[..n], mask[..n]) + (if mask[n] then [items[n]] else [])
  }

  /** The `(k, v)` array `src` broadcasts onto the `(n, w)` array `dst`. */
  predicate Broadcasts(src: Matrix, dst: Matrix) {
    && (src.Height() == dst.Height() || src.Height() == 1)
    && (src.width == dst.width || src.width == 1)
  }

  /** The rows of the broadcast of `src` onto an `(n, w)` array. */
  function BroadcastRows(src: Matrix, n: nat, w: nat): (rows: seq<Row>)
    requires src.Valid() && (src.Height() == n || src.Height() == 1) && (src.width == w || src.width == 1)
    ensures |rows| == n && forall i :: 0 <= i < n ==> |rows[i]| == w
    ensures forall i, j :: 0 <= i < n && 0 <= j < w ==>
      rows[i][j] == src.rows[if src.Height() == 1 then 0 else i][if src.width == 1 then 0 else j]
  {
    seq(n, i requires 0 <= i < n =>
      var s := src.rows[if src.Height() == 1 then 0 else i];
      seq(w, j requires 0 <= j < w => s[if src.width == 1 then 0 else j]))
  }

  /** Broadcasting onto the array's own shape changes nothing. */
  lemma BroadcastOfSameShape(src: Matrix)
    requires src.Valid()
    ensures BroadcastRows(src, src.Height(), src.width) == src.rows
  {
    var rows := BroadcastRows(src, src.Height(), src.width);
    forall i | 0 <= i < src.Height()
      ensures rows[i] == src.rows[i]
    {
      assert |src.rows[i]| == src.width;
    }
  }

  /** `dst[:] = src`: every element of `dst` is overwritten by the broadcast of
      `src`, and the array keeps its shape; numpy raises when the shapes do not
      broadcast. */
  function SliceAssign(dst: Matrix, src: Matrix): (r: Result<Matrix>)
    requires src.Valid()
    ensures r.Ok? <==> Broadcasts(src, dst)
    ensures r.Err? ==> r.fault == ArrayError(Broadcast)
    ensures r.Ok? ==> r.value.Valid() && r.value.Height() == dst.Height() && r.value.width == dst.width
    ensures r.Ok? && src.Height() == dst.Height() && src.width == dst.width ==> r.value == src
    ensures r.Ok? ==> forall i, j :: 0 <= i < dst.Height() && 0 <= j < dst.width ==>
      r.value.rows[i][j] == src.rows[if src.Height() == 1 then 0 else i][if src.width == 1 then 0 else j]
  {
    if !Broadcasts(src, dst) then Err(ArrayError(Broadcast))
    else
      BroadcastOfSameShape(src);
      Ok(Matrix(BroadcastRows(src, dst.Height(), dst.width), dst.width))
  }

  /** Writing the same array twice leaves what one write leaves. */
  lemma SliceAssignIdempotent(dst: Matrix, src: Matrix)
    requires src.Valid()
    requires SliceAssign(dst, src).Ok?
    ensures SliceAssign(SliceAssign(dst, src).value, src) == SliceAssign(dst, src)
  {
  }
}

=== FILE: outcomes.dfy ===
/**
 * Failure-carrying values shared by every graphic constructor.
 *
 * The Python code reports problems by raising: either its own `ValueError`s
 * (bad colour shape, bad `pre_computed` dictionary, the unknown colour format),
 * an exception numpy raises on an ill-shaped array operation, or an exception
 * from a helper it calls. Each becomes
 * a `Fault`, and every constructor or update that can raise returns a
 * `Result`, so that the error paths are part of the model.
 */
module Outcomes {

  datatype Option<+T> = None | Some(value: T) {
    function GetOr(default: T): T {
      match this
      case Some(v) => v
      case None => default
    }
  }

  /** A helper outside this model that can refuse its arguments: the colormap
      lookups of `fastplotlib.utils` reject an unknown colormap name, and
      `np.histogram` rejects input it cannot bin. */
  datatype Helper = GetColors | MapLabelsToColors | CmapTexture | NumpyHistogram

  /** The numpy operation that raised. */
  datatype ArrayFault =
    | NotAnArray      // an array operation applied to `None`
    | MaskLength      // a boolean index whose length differs from the indexed axis
    | Broadcast       // a whole-array assignment between shapes that do not broadcast
    | Stack           // stacking rows of different lengths, or stacking nothing at all
    | EmptyList       // the first element of an empty list
    | EmptyReduction  // the minimum of an empty array
    | IndexRange      // an index past the end of an array

  /** Why a constructor or an update raised. */
  datatype Fault =
    | ColorShape            // an RGBA array that is not one 4-column row per datapoint
    | UnknownColorFormat    // a colour specification none of the cases accept
    | PrecomputedKeys       // `pre_computed` keys are not exactly {'hist', 'bin_edges'}
    | PrecomputedValues     // a `pre_computed` value is not a numpy.ndarray
    | ArrayError(kind: ArrayFault)
    | HelperRaised(helper: Helper)

  /** A helper's answer, `None` when it raised, as a `Result`. */
  function Raised<T>(o: Option<T>, h: Helper): (r: Result<T>)
    ensures r.Ok? <==> o.Some?
    ensures r.Ok? ==> r.value == o.value
    ensures r.Err? ==> r.fault == HelperRaised(h)
  {
    match o
    case Some(v) => Ok(v)
    case None => Err(HelperRaised(h))
  }

  datatype Result<+T> = Ok(value: T) | Err(fault: Fault) {
    predicate IsFailure() {
      Err?
    }

    function PropagateFailure<U>(): Result<U>
      requires Err?
    {
      Err(fault)
    }

    function Extract(): T
      requires Ok?
    {
      value
    }
  }
}

=== FILE: scatter.dfy ===
/**
 * `Scatter`: a point cloud. The points material draws a single colour, so the
 * constructor splits the data into one points object per distinct resolved
 * colour, taken in `np.unique` order, each holding the data rows of that
 * colour in their original order.
 */
module Scatters {
  import opened Outcomes
  import opened NdArrays
  import opened UniqueRows
  import opened Utils
  import opened Graphics

  /** One points object: its positions, and a material of one colour and one size. */
  datatype Points = Points(positions: Matrix, color: Row, size: real)

  /** The graphic, and the children of its `pygfx.Group`, which are also
      `points_objects`, in the order they were added. */
  datatype Scatter = Scatter(graphic: Graphic, points: seq<Points>)

  /** Point and line data: a single point or an `(N, D)` array. */
  predicate PositionLike(a: NdArray) {
    a.Valid() && (a.Vector? || a.Table?)
  }

  /** `_process_positions`: a 1-D array becomes the one row of a 2-D array. */
  function ProcessPositions(a: NdArray): (m: Matrix)
    requires PositionLike(a)
    ensures m.Valid()
    ensures a.Vector? ==> m.rows == [a.elems]
    ensures a.Table? ==> m == a.m
  {
    match a
    case Vector(_, elems) => Matrix([elems], |elems|)
    case Table(_, m) => m
  }

  /** The positions of one colour group: the data rows whose colour row is
      `color`, promoted to a 2-D array when the data is a single point. */
  function GroupPositions(data: NdArray, colors: seq<Row>, color: Row): (m: Matrix)
    requires PositionLike(data)
    requires |colors| == data.Leading()
    ensures m.Valid()
  {
    match data
    case Vector(_, elems) =>
      var picked := BoolIndex(elems, Mask(colors, color));
      Matrix([picked], |picked|)
    case Table(_, m) =>
      var picked := BoolIndex(m.rows, Mask(colors, color));
      assert forall k :: 0 <= k < |picked| ==> picked[k] in m.rows;
      Matrix(picked, m.width)
  }

  lemma GroupPositionsOfTable(data: NdArray, colors: seq<Row>, color: Row)
    requires PositionLike(data) && data.Table?
    requires |colors| == data.Leading()
    ensures GroupPositions(data, colors, color) == Matrix(BoolIndex(data.m.rows, Mask(colors, color)), data.m.width)
  {
  }

  /** The loop of `Scatter.__init__`: one points object per entry of
      `np.unique(colors, axis=0)`, in that order. */
  function Groups(data: NdArray, colors: seq<Row>, size: real): (ps: seq<Points>)
    requires PositionLike(data)
    requires |colors| == data.Leading()
    ensures |ps| == |Unique(colors)|
    ensures forall k :: 0 <= k < |ps| ==>
      ps[k] == Points(GroupPositions(data, colors, Unique(colors)[k]), Unique(colors)[k], size)
  {
    var u := Unique(colors);
    seq(|u|, k requires 0 <= k < |u| => Points(GroupPositions(data, colors, u[k]), u[k], size))
  }

  /** `Scatter.__init__(data, size, colors, cmap, ...)`. numpy raises when the
      colours are `None` (skipped, or the silent fall-through of colour
      resolution) and when the colour table and the data differ in length;
      with no colour rows at all the loop does not run. */
  function NewScatter(data: NdArray, size: real, colors: ColorsArg, cmap: Option<string>,
                      colorsLength: Option<nat>, alpha: real, u: Collaborators): (r: Result<Scatter>)
    requires PositionLike(data)
    requires colors.Given? ==> colors.arr.Valid()
    ensures NewGraphic(data, colors, colorsLength, cmap, alpha, u).Err? ==>
      r == Err(NewGraphic(data, colors, colorsLength, cmap, alpha, u).fault)
    ensures colors.NoColors? ==> r == Err(ArrayError(NotAnArray))
    // construction succeeds exactly when there is a colour table that is empty
    // or has one row per datapoint
    ensures var g := NewGraphic(data, colors, colorsLength, cmap, alpha, u);
      r.Ok? <==> g.Ok? && g.value.colors.Some? &&
                 (|g.value.colors.value| == 0 || |g.value.colors.value| == data.Leading())
    ensures var g := NewGraphic(data, colors, colorsLength, cmap, alpha, u);
      g.Ok? && g.value.colors.None? ==> r == Err(ArrayError(NotAnArray))
    ensures var g := NewGraphic(data, colors, colorsLength, cmap, alpha, u);
      g.Ok? && g.value.colors.Some? && |g.value.colors.value| != 0 && |g.value.colors.value| != data.Leading() ==>
      r == Err(ArrayError(MaskLength))
    ensures r.Ok? ==> r.value.graphic == NewGraphic(data, colors, colorsLength, cmap, alpha, u).value
    ensures r.Ok? && |r.value.graphic.colors.value| == 0 ==> r.value.points == []
    ensures r.Ok? && |r.value.graphic.colors.value| != 0 ==>
      PositionLike(r.value.graphic.data) &&
      r.value.points == Groups(r.value.graphic.data, r.value.graphic.colors.value, size)
    ensures r.Ok? ==> forall k :: 0 <= k < |r.value.points| ==> r.value.points[k].size == size
  {
    var g :- NewGraphic(data, colors, colorsLength, cmap, alpha, u);
    if g.colors.None? then Err(ArrayError(NotAnArray))
    else
      var table := g.colors.value;
      if |table| == 0 then Ok(Scatter(g, []))
      else if |table| != g.data.Leading() then Err(ArrayError(MaskLength))
      else Ok(Scatter(g, Groups(g.data, table, size)))
  }

  /** The concatenation of every points object's positions. */
  function AllPositions(ps: seq<Points>): (rows: seq<Row>)
  {
    if |ps| == 0 then [] else ps[0].positions.rows + AllPositions(ps[1..])
  }

  /** The rows of `items` whose colour is `L[0]`, then those whose colour is
      `L[1]`, and so on. */
  function Gather<T>(items: seq<T>, colors: seq<Row>, L: seq<Row>): seq<T>
    requires |items| == |colors|
  {
    if |L| == 0 then [] else BoolIndex(items, Mask(colors, L[0])) + Gather(items, colors, L[1..])
  }

  ghost predicate Distinct(L: seq<Row>) {
    forall i, j :: 0 <= i < j < |L| ==> L[i] != L[j]
  }

  lemma StrictlySortedIsDistinct(L: seq<Row>)
    requires StrictlySorted(L)
    ensures Distinct(L)
  {
    forall i, j | 0 <= i < j < |L|
      ensures L[i] != L[j]
    {
      LexLessIrreflexive(L[i]);
    }
  }

  lemma {:induction false} GatherOfNothing<T>(L: seq<Row>)
    ensures Gather<T>([], [], L) == []
    decreases |L|
  {
    if |L| > 0 {
      GatherOfNothing<T>(L[1..]);
    }
  }

  /** Selecting from one more item: the selection of the prefix, then the last
      item if its colour matches. */
  lemma SelectSnoc<T>(items: seq<T>, colors: seq<Row>, c: Row)
    requires |items| == |colors| > 0
    ensures var n := |items| - 1;
      BoolIndex(items, Mask(colors, c)) ==
      BoolIndex(items[..n], Mask(colors[..n], c)) + (if colors[n] == c then [items[n]] else [])
  {
    var n := |items| - 1;
    assert Mask(colors, c)[..n] == Mask(colors[..n], c);
  }

  /** The multiset bookkeeping of one step of `GatherSnoc`. */
  lemma SnocMultisets<T>(front: seq<T>, last: seq<T>, rest: seq<T>, rest': seq<T>, x: T, head: bool, inTail: bool)
    requires last == if head then [x] else []
    requires head ==> !inTail
    requires multiset(rest) == multiset(rest') + (if inTail then multiset{x} else multiset{})
    ensures multiset(front + last + rest) == multiset(front + rest') + (if head || inTail then multiset{x} else multiset{})
  {
  }

  /** Adding one more item adds it to the group of its colour, if that colour
      is listed at all. */
  lemma {:induction false} GatherSnoc<T>(items: seq<T>, colors: seq<Row>, L: seq<Row>)
    requires |items| == |colors| > 0
    requires Distinct(L)
    ensures var n := |items| - 1;
      multiset(Gather(items, colors, L)) ==
      multiset(Gather(items[..n], colors[..n], L)) +
      (if colors[n] in L then multiset{items[n]} else multiset{})
    decreases |L|
  {
    var n := |items| - 1;
    if |L| > 0 {
      var tail := L[1..];
      var c := colors[n];
      HeadAndTail(L);
      GatherSnoc(items, colors, tail);
      GatherStep(items, colors, L);
      SnocMultisets(BoolIndex(items[..n], Mask(colors[..n], L[0])),
                    if c == L[0] then [items[n]] else [],
                    Gather(items, colors, tail), Gather(items[..n], colors[..n], tail),
                    items[n], c == L[0], c in tail);
    }
  }

  /** A list of distinct colours is its head, not repeated, then its tail. */
  lemma HeadAndTail(L: seq<Row>)
    requires |L| > 0 && Distinct(L)
    ensures Distinct(L[1..])
    ensures forall c :: c in L <==> c == L[0] || c in L[1..]
    ensures L[0] !in L[1..]
  {
    var tail := L[1..];
    assert L == [L[0]] + tail;
    assert forall j :: 0 <= j < |tail| ==> tail[j] == L[j + 1];
  }

  /** One colour's worth of `Gather`, with and without the last item. */
  lemma GatherStep<T>(items: seq<T>, colors: seq<Row>, L: seq<Row>)
    requires |items| == |colors| > 0 && |L| > 0
    ensures var n := |items| - 1;
      && Gather(items, colors, L) ==
         BoolIndex(items[..n], Mask(colors[..n], L[0])) + (if colors[n] == L[0] then [items[n]] else []) +
         Gather(items, colors, L[1..])
      && Gather(items[..n], colors[..n], L) ==
         BoolIndex(items[..n], Mask(colors[..n], L[0])) + Gather(items[..n], colors[..n], L[1..])
  {
    SelectSnoc(items, colors, L[0]);
  }

  lemma MultisetSnoc<T>(s: seq<T>)
    requires |s| > 0
    ensures multiset(s) == multiset(s[..|s| - 1]) + multiset{s[|s| - 1]}
  {
    assert s == s[..|s| - 1] + [s[|s| - 1]];
  }

  /** When every colour is listed exactly once, gathering by colour permutes
      the items. */
  lemma {:induction false} GatherIsPermutation<T>(items: seq<T>, colors: seq<Row>, L: seq<Row>)
    requires |items| == |colors|
    requires Distinct(L)
    requires forall i :: 0 <= i < |colors| ==> colors[i] in L
    ensures multiset(Gather(items, colors, L)) == multiset(items)
    decreases |items|
  {
    if |items| == 0 {
      assert items == [] && colors == [];
      GatherOfNothing<T>(L);
    } else {
      var n := |items| - 1;
      var prefix, prefixColors := items[..n], colors[..n];
      assert colors[n] in L;
      GatherSnoc(items, colors, L);
      assert forall i :: 0 <= i < |prefixColors| ==> prefixColors[i] in L by {
        forall i | 0 <= i < |prefixColors|
          ensures prefixColors[i] in L
        {
          assert prefixColors[i] == colors[i];
        }
      }
      GatherIsPermutation(prefix, prefixColors, L);
      MultisetSnoc(items);
    }
  }

  lemma {:induction false} AllPositionsOfGroups(rows: seq<Row>, colors: seq<Row>, L: seq<Row>, width: nat, size: real)
    requires |rows| == |colors|
    ensures AllPositions(seq(|L|, k requires 0 <= k < |L| =>
              Points(Matrix(BoolIndex(rows, Mask(colors, L[k])), width), L[k], size)))
            == Gather(rows, colors, L)
    decreases |L|
  {
    var ps := seq(|L|, k requires 0 <= k < |L| =>
      Points(Matrix(BoolIndex(rows, Mask(colors, L[k])), width), L[k], size));
    if |L| > 0 {
      AllPositionsOfGroups(rows, colors, L[1..], width, size);
      assert ps[1..] == seq(|L[1..]|, k requires 0 <= k < |L[1..]| =>
        Points(Matrix(BoolIndex(rows, Mask(colors, L[1..][k])), width), L[1..][k], size));
    }
  }

  /** The colour table of a scatter built from an `(N, D)` array. */
  function ColorTable(s: Scatter): seq<Row>
    requires s.graphic.colors.Some?
  {
    s.graphic.colors.value
  }

  /** A successful scatter over a nonempty colour table holds the groups of
      its float32 data, one colour row per data row. */
  lemma ScatterHoldsGroups(data: NdArray, size: real, colors: ColorsArg, cmap: Option<string>,
                           colorsLength: Option<nat>, alpha: real, u: Collaborators)
    requires PositionLike(data)
    requires colors.Given? ==> colors.arr.Valid()
    requires NewScatter(data, size, colors, cmap, colorsLength, alpha, u).Ok?
    requires NewScatter(data, size, colors, cmap, colorsLength, alpha, u).value.graphic.colors.value != []
    ensures var s := NewScatter(data, size, colors, cmap, colorsLength, alpha, u).value;
      && PositionLike(s.graphic.data)
      && |ColorTable(s)| == s.graphic.data.Leading() == data.Leading()
      && s.points == Groups(s.graphic.data, ColorTable(s), size)
      && (data.Table? ==> s.graphic.data.Table? && s.graphic.data.m == data.m)
  {
  }

  /** The groups have one colour each, one per distinct colour row, in
      lexicographic order. */
  lemma GroupColors(data: NdArray, colors: seq<Row>, size: real)
    requires PositionLike(data)
    requires |colors| == data.Leading()
    ensures var ps := Groups(data, colors, size);
      && |ps| == |set y | y in colors|
      && (forall k, l :: 0 <= k < l < |ps| ==> LexLess(ps[k].color, ps[l].color))
      && (forall y :: y in colors <==> exists k :: 0 <= k < |ps| && ps[k].color == y)
  {
    var ps := Groups(data, colors, size);
    var un := Unique(colors);
    UniqueIndexed(colors);
    assert forall k :: 0 <= k < |ps| ==> ps[k].color == un[k];
    forall y | y in colors
      ensures exists k :: 0 <= k < |ps| && ps[k].color == y
    {
      var k := IndexOfUnique(colors, y);
      assert ps[k].color == y;
    }
  }

  /** The unique rows, counted, ordered, and each found at an index. */
  lemma UniqueIndexed(colors: seq<Row>)
    ensures var un := Unique(colors);
      && |un| == |set y | y in colors|
      && (forall k, l :: 0 <= k < l < |un| ==> LexLess(un[k], un[l]))
      && (forall k :: 0 <= k < |un| ==> un[k] in colors)
  {
    UniqueCountsDistinctRows(colors);
  }

  /** Where a colour row sits among the unique rows. */
  lemma IndexOfUnique(colors: seq<Row>, y: Row) returns (k: nat)
    requires y in colors
    ensures k < |Unique(colors)| && Unique(colors)[k] == y
  {
    var un := Unique(colors);
    assert y in un;
    k :| 0 <= k < |un| && un[k] == y;
  }

  /** One points object per distinct colour row, in lexicographic order and
      without repeats. */
  lemma OnePointsObjectPerColor(data: NdArray, size: real, colors: ColorsArg, cmap: Option<string>,
                                colorsLength: Option<nat>, alpha: real, u: Collaborators)
    requires PositionLike(data)
    requires colors.Given? ==> colors.arr.Valid()
    requires NewScatter(data, size, colors, cmap, colorsLength, alpha, u).Ok?
    ensures var s := NewScatter(data, size, colors, cmap, colorsLength, alpha, u).value;
      && |s.points| == |set y | y in ColorTable(s)|
      && (forall k, l :: 0 <= k < l < |s.points| ==> LexLess(s.points[k].color, s.points[l].color))
      && (forall y :: y in ColorTable(s) <==> exists k :: 0 <= k < |s.points| && s.points[k].color == y)
  {
    var s := NewScatter(data, size, colors, cmap, colorsLength, alpha, u).value;
    var table := ColorTable(s);
    if |table| > 0 {
      ScatterHoldsGroups(data, size, colors, cmap, colorsLength, alpha, u);
      GroupColors(s.graphic.data, table, size);
    } else {
      assert (set y | y in table) == {};
    }
  }

  /** Each points object holds exactly the data rows whose colour is its own,
      in their original order: its positions are the rows at the increasing
      list of indices of that colour. */
  lemma GroupsKeepRowsInOrder(data: NdArray, size: real, colors: ColorsArg, cmap: Option<string>,
                              colorsLength: Option<nat>, alpha: real, u: Collaborators, k: nat)
    requires PositionLike(data) && data.Table?
    requires colors.Given? ==> colors.arr.Valid()
    requires NewScatter(data, size, colors, cmap, colorsLength, alpha, u).Ok?
    requires k < |NewScatter(data, size, colors, cmap, colorsLength, alpha, u).value.points|
    ensures var s := NewScatter(data, size, colors, cmap, colorsLength, alpha, u).value;
      var p := s.points[k];
      var idx := TrueIndices(Mask(ColorTable(s), p.color));
      && (forall j :: 0 <= j < |idx| ==> idx[j] < |data.m.rows| && ColorTable(s)[idx[j]] == p.color)
      && (forall i :: 0 <= i < |data.m.rows| && ColorTable(s)[i] == p.color ==> i in idx)
      && (forall j, l :: 0 <= j < l < |idx| ==> idx[j] < idx[l])
      && |p.positions.rows| == |idx|
      && (forall j :: 0 <= j < |idx| ==> p.positions.rows[j] == data.m.rows[idx[j]])
  {
  }

  /** Within the groups of a table, row `i` lands in the one group of its
      colour. */
  lemma RowInItsGroup(data: NdArray, colors: seq<Row>, size: real, i: nat)
    requires PositionLike(data) && data.Table?
    requires |colors| == data.Leading()
    requires i < |data.m.rows|
    ensures var ps := Groups(data, colors, size);
      exists k :: 0 <= k < |ps| && ps[k].color == colors[i] &&
        data.m.rows[i] in ps[k].positions.rows &&
        forall l :: 0 <= l < |ps| && l != k ==> ps[l].color != colors[i]
  {
    var ps := Groups(data, colors, size);
    var un := Unique(colors);
    var c := colors[i];
    assert c in un by {
      assert c in colors;
    }
    var k :| 0 <= k < |un| && un[k] == c;
    assert ps[k] == Points(GroupPositions(data, colors, c), c, size);
    assert data.m.rows[i] in ps[k].positions.rows by {
      RowPicked(data.m.rows, colors, i);
      GroupPositionsOfTable(data, colors, c);
    }
    StrictlySortedIsDistinct(un);
    forall l | 0 <= l < |ps| && l != k
      ensures ps[l].color != c
    {
      assert ps[l].color == un[l];
    }
  }

  /** Masking by a row's own colour keeps that row. */
  lemma RowPicked<T>(items: seq<T>, colors: seq<Row>, i: nat)
    requires |items| == |colors| && i < |items|
    ensures items[i] in BoolIndex(items, Mask(colors, colors[i]))
  {
    var mask := Mask(colors, colors[i]);
    var idx := TrueIndices(mask);
    assert i in idx;
    var j :| 0 <= j < |idx| && idx[j] == i;
    assert BoolIndex(items, mask)[j] == items[i];
  }

  /** Every data row lands in the points object of its own colour, and no
      other object has that colour. */
  lemma EveryRowInItsColorGroup(data: NdArray, size: real, colors: ColorsArg, cmap: Option<string>,
                                colorsLength: Option<nat>, alpha: real, u: Collaborators, i: nat)
    requires PositionLike(data) && data.Table?
    requires colors.Given? ==> colors.arr.Valid()
    requires NewScatter(data, size, colors, cmap, colorsLength, alpha, u).Ok?
    requires NewScatter(data, size, colors, cmap, colorsLength, alpha, u).value.graphic.colors.value != []
    requires i < |data.m.rows|
    ensures var s := NewScatter(data, size, colors, cmap, colorsLength, alpha, u).value;
      exists k :: 0 <= k < |s.points| && s.points[k].color == ColorTable(s)[i] &&
        data.m.rows[i] in s.points[k].positions.rows &&
        forall l :: 0 <= l < |s.points| && l != k ==> s.points[l].color != ColorTable(s)[i]
  {
    var s := NewScatter(data, size, colors, cmap, colorsLength, alpha, u).value;
    ScatterHoldsGroups(data, size, colors, cmap, colorsLength, alpha, u);
    RowInItsGroup(s.graphic.data, ColorTable(s), size, i);
  }

  /** Putting all points objects together gives back the data rows, each
      exactly as often as it occurs: the grouping is a permutation. */
  lemma GroupsPermuteData(data: NdArray, size: real, colors: ColorsArg, cmap: Option<string>,
                          colorsLength: Option<nat>, alpha: real, u: Collaborators)
    requires PositionLike(data) && data.Table?
    requires colors.Given? ==> colors.arr.Valid()
    requires NewScatter(data, size, colors, cmap, colorsLength, alpha, u).Ok?
    ensures var s := NewScatter(data, size, colors, cmap, colorsLength, alpha, u).value;
      |s.graphic.colors.value| > 0 ==> multiset(AllPositions(s.points)) == multiset(data.m.rows)
  {
    var s := NewScatter(data, size, colors, cmap, colorsLength, alpha, u).value;
    var table := ColorTable(s);
    if |table| > 0 {
      var un := Unique(table);
      var rows := data.m.rows;
      assert s.graphic.data.m == data.m;
      AllPositionsOfGroups(rows, table, un, data.m.width, size);
      assert s.points == seq(|un|, k requires 0 <= k < |un| =>
        Points(Matrix(BoolIndex(rows, Mask(table, un[k])), data.m.width), un[k], size));
      StrictlySortedIsDistinct(un);
      GatherIsPermutation(rows, table, un);
    }
  }

  /** A single 1-D point with the default colour becomes one white points
      object holding that point as its only row. */
  lemma SinglePointIsOneRow(point: Row, size: real, alpha: real, u: Collaborators)
    requires |point| > 0
    ensures var r := NewScatter(Vector(FloatKind, point), size, Unset, None, None, alpha, u);
      r.Ok? && |r.value.points| == 1 &&
      r.value.points[0] == Points(Matrix([point], |point|), White, size)
  {
    var data := Vector(FloatKind, point);
    var table := WhiteRows(|point|);
    assert NewGraphic(data, Unset, None, None, alpha, u) == Ok(Graphic(data, Some(table)));
    WhiteGroupIsWholePoint(point);
    var ps := Groups(data, table, size);
    assert |ps| == 1 && ps[0] == Points(Matrix([point], |point|), White, size);
  }

  /** Default white colours have the single unique row `White`, whose mask
      picks every coordinate of a 1-D point. */
  lemma WhiteGroupIsWholePoint(point: Row)
    requires |point| > 0
    ensures Unique(WhiteRows(|point|)) == [White]
    ensures GroupPositions(Vector(FloatKind, point), WhiteRows(|point|), White) == Matrix([point], |point|)
  {
    UniqueOfWhiteRows(|point|);
    WhiteMaskPicksAll(point);
  }

  lemma UniqueOfWhiteRows(n: nat)
    requires n > 0
    ensures Unique(WhiteRows(n)) == [White]
  {
    var table := WhiteRows(n);
    assert table[0] == White;
    assert forall y :: y in table <==> y == White;
    SortedListsWithSameRowsAreEqual(Unique(table), [White]);
  }

  lemma WhiteMaskPicksAll(point: Row)
    requires |point| > 0
    ensures BoolIndex(point, Mask(WhiteRows(|point|), White)) == point
  {
    ConstantMaskPicksAll(point, WhiteRows(|point|), White);
  }

  /** Masking by the one colour of a single-coloured table picks every item. */
  lemma ConstantMaskPicksAll<T>(items: seq<T>, table: seq<Row>, c: Row)
    requires |items| == |table|
    requires forall i :: 0 <= i < |table| ==> table[i] == c
    ensures BoolIndex(items, Mask(table, c)) == items
  {
    MaskOfConstant(table, c);
    AllTruePicksAll(items, Mask(table, c));
  }

  /** Masking a table of one repeated colour by that colour holds everywhere. */
  lemma MaskOfConstant(table: seq<Row>, c: Row)
    requires forall i :: 0 <= i < |table| ==> table[i] == c
    ensures forall i :: 0 <= i < |table| ==> Mask(table, c)[i]
  {
  }

  /** A mask that holds everywhere picks every item. */
  lemma AllTruePicksAll<T>(items: seq<T>, mask: seq<bool>)
    requires |items| == |mask|
    requires forall i :: 0 <= i < |mask| ==> mask[i]
    ensures BoolIndex(items, mask) == items
  {
    TrueIndicesOfAllTrue(mask);
    var picked := BoolIndex(items, mask);
    assert |picked| == |items|;
    forall k | 0 <= k < |picked|
      ensures picked[k] == items[k]
    {
      assert TrueIndices(mask)[k] == k;
    }
  }

  lemma {:induction false} TrueIndicesOfAllTrue(mask: seq<bool>)
    requires forall i :: 0 <= i < |mask| ==> mask[i]
    ensures |TrueIndices(mask)| == |mask|
    ensures forall k :: 0 <= k < |mask| ==> TrueIndices(mask)[k] == k
    decreases |mask|
  {
    if |mask| > 0 {
      TrueIndicesOfAllTrue(mask[..|mask| - 1]);
    }
  }

  /** Colour rows `a, a, b` with `b` sorting first have the unique rows
      `b, a`. */
  lemma UniqueOfTwoColors(a: Row, b: Row)
    requires LexLess(b, a)
    ensures Unique([a, a, b]) == [b, a]
  {
    LexLessIrreflexive(a);
    var table := [a, a, b];
    assert forall y :: y in table <==> y == b || y == a;
    SortedListsWithSameRowsAreEqual(Unique(table), [b, a]);
  }

  lemma TrueIndicesOfLastOfThree()
    ensures TrueIndices([false, false, true]) == [2]
  {
    assert [false, false, true][..2] == [false, false];
    assert [false, false][..1] == [false];
    assert [false][..0] == [];
  }

  lemma TrueIndicesOfFirstTwoOfThree()
    ensures TrueIndices([true, true, false]) == [0, 1]
  {
    assert [true, true, false][..2] == [true, true];
    assert [true, true][..1] == [true];
    assert [true][..0] == [];
  }

  lemma SelectLastOfThree<T>(items: seq<T>, colors: seq<Row>, c: Row)
    requires |items| == 3 && |colors| == 3
    requires Mask(colors, c) == [false, false, true]
    ensures BoolIndex(items, Mask(colors, c)) == [items[2]]
  {
    TrueIndicesOfLastOfThree();
  }

  lemma SelectFirstTwoOfThree<T>(items: seq<T>, colors: seq<Row>, c: Row)
    requires |items| == 3 && |colors| == 3
    requires Mask(colors, c) == [true, true, false]
    ensures BoolIndex(items, Mask(colors, c)) == [items[0], items[1]]
  {
    TrueIndicesOfFirstTwoOfThree();
  }

  /** With colour rows `a, a, b`, the group of `b` holds the last row. */
  lemma GroupOfLastColor(rows: seq<Row>, width: nat, a: Row, b: Row)
    requires |rows| == 3 && forall i :: 0 <= i < 3 ==> |rows[i]| == width
    requires a != b
    ensures GroupPositions(Table(FloatKind, Matrix(rows, width)), [a, a, b], b) == Matrix([rows[2]], width)
  {
    assert Mask([a, a, b], b) == [false, false, true];
    SelectLastOfThree(rows, [a, a, b], b);
    GroupPositionsOfTable(Table(FloatKind, Matrix(rows, width)), [a, a, b], b);
  }

  /** With colour rows `a, a, b`, the group of `a` holds the first two rows. */
  lemma GroupOfFirstColor(rows: seq<Row>, width: nat, a: Row, b: Row)
    requires |rows| == 3 && forall i :: 0 <= i < 3 ==> |rows[i]| == width
    requires a != b
    ensures GroupPositions(Table(FloatKind, Matrix(rows, width)), [a, a, b], a) == Matrix([rows[0], rows[1]], width)
  {
    assert Mask([a, a, b], a) == [true, true, false];
    SelectFirstTwoOfThree(rows, [a, a, b], a);
    GroupPositionsOfTable(Table(FloatKind, Matrix(rows, width)), [a, a, b], a);
  }

  /** Three rows coloured `a, a, b`, where `b` sorts first: a points object
      with the last row, then one with the first two. */
  lemma TwoColorGroups(rows: seq<Row>, width: nat, a: Row, b: Row, size: real)
    requires |rows| == 3 && forall i :: 0 <= i < 3 ==> |rows[i]| == width
    requires LexLess(b, a)
    ensures Groups(Table(FloatKind, Matrix(rows, width)), [a, a, b], size) ==
      [Points(Matrix([rows[2]], width), b, size), Points(Matrix([rows[0], rows[1]], width), a, size)]
  {
    LexLessIrreflexive(a);
    UniqueOfTwoColors(a, b);
    GroupOfLastColor(rows, width, a, b);
    GroupOfFirstColor(rows, width, a, b);
  }

  const Red: Row := [1.0, 0.0, 0.0, 1.0]
  const Green: Row := [0.0, 1.0, 0.0, 1.0]

  /** Positions `[[0,0],[1,1],[2,2]]` coloured red, red, green give two points
      objects: green (it sorts first) with the last point, then red with the
      first two. */
  lemma RedRedGreenScenario(u: Collaborators)
    ensures var data := Table(FloatKind, Matrix([[0.0, 0.0], [1.0, 1.0], [2.0, 2.0]], 2));
      var colors := Given(Table(FloatKind, Matrix([Red, Red, Green], 4)));
      NewScatter(data, 1.0, colors, None, None, 1.0, u) ==
        Ok(Scatter(Graphic(data, Some([Red, Red, Green])),
                   [Points(Matrix([[2.0, 2.0]], 2), Green, 1.0),
                    Points(Matrix([[0.0, 0.0], [1.0, 1.0]], 2), Red, 1.0)]))
  {
    var rows: seq<Row> := [[0.0, 0.0], [1.0, 1.0], [2.0, 2.0]];
    var data := Table(FloatKind, Matrix(rows, 2));
    var table := [Red, Red, Green];
    var colors := Given(Table(FloatKind, Matrix(table, 4)));
    assert NewGraphic(data, colors, None, None, 1.0, u) == Ok(Graphic(data, Some(table)));
    assert LexLess(Green, Red);
    TwoColorGroups(rows, 2, Red, Green, 1.0);
  }

  /** `Scatter.update_data`: the new positions replace those of the first
      points object only; every other object, and the graphic's own data,
      stay as they were. */
  function UpdateData(s: Scatter, data: NdArray): (r: Result<Scatter>)
    requires PositionLike(data)
    ensures r.Err? <==> |s.points| == 0 || !Broadcasts(ProcessPositions(data), s.points[0].positions)
    ensures |s.points| == 0 ==> r == Err(ArrayError(EmptyList))
    ensures r.Ok? ==>
      && r.value.graphic == s.graphic
      && |r.value.points| == |s.points|
      && r.value.points[1..] == s.points[1..]
      && r.value.points[0].color == s.points[0].color
      && r.value.points[0].size == s.points[0].size
      && r.value.points[0].positions.Height() == s.points[0].positions.Height()
      && r.value.points[0].positions.width == s.points[0].positions.width
    ensures r.Ok? && ProcessPositions(data).Height() == s.points[0].positions.Height()
                  && ProcessPositions(data).width == s.points[0].positions.width ==>
      r.value.points[0].positions == ProcessPositions(data)
    ensures r.Ok? ==>
      var before := s.points[0].positions;
      r.value.points[0].positions == Matrix(BroadcastRows(ProcessPositions(data), before.Height(), before.width), before.width)
  {
    var positions := ProcessPositions(data.AsFloat32());
    if |s.points| == 0 then Err(ArrayError(EmptyList))
    else
      var first := s.points[0];
      var written :- SliceAssign(first.positions, positions);
      Ok(s.(points := [first.(positions := written)] + s.points[1..]))
  }

  /** Writing the same positions twice leaves what writing them once leaves. */
  lemma UpdateDataIdempotent(s: Scatter, data: NdArray)
    requires PositionLike(data)
    requires UpdateData(s, data).Ok?
    ensures UpdateData(UpdateData(s, data).value, data) == UpdateData(s, data)
  {
    var once := UpdateData(s, data).value;
    var positions := ProcessPositions(data.AsFloat32());
    SliceAssignIdempotent(s.points[0].positions, positions);
    assert once.points[1..] == s.points[1..];
  }
}

=== FILE: unique_rows.dfy ===
/**
 * `np.unique(a, axis=0)`: the distinct rows of a 2-D array, sorted in
 * lexicographic order (numpy compares the rows field by field, first column
 * first).
 */
module UniqueRows {
  import opened NdArrays

  /** Lexicographic order on rows; a proper prefix comes first. */
  predicate LexLess(a: Row, b: Row)
    decreases |a|
  {
    if |a| == 0 then |b| > 0
    else if |b| == 0 then false
    else a[0] < b[0] || (a[0] == b[0] && LexLess(a[1..], b[1..]))
  }

  lemma {:induction false} LexLessIrreflexive(a: Row)
    ensures !LexLess(a, a)
    decreases |a|
  {
    if |a| > 0 {
      LexLessIrreflexive(a[1..]);
    }
  }

  lemma {:induction false} LexLessTransitive(a: Row, b: Row, c: Row)
    requires LexLess(a, b) && LexLess(b, c)
    ensures LexLess(a, c)
    decreases |a|
  {
    if |a| > 0 && a[0] == b[0] && b[0] == c[0] {
      LexLessTransitive(a[1..], b[1..], c[1..]);
    }
  }

  lemma {:induction false} LexLessTotal(a: Row, b: Row)
    requires a != b
    ensures LexLess(a, b) || LexLess(b, a)
    decreases |a|
  {
    if |a| > 0 && |b| > 0 && a[0] == b[0] {
      assert a == [a[0]] + a[1..] && b == [b[0]] + b[1..];
      LexLessTotal(a[1..], b[1..]);
    }
  }

  /** Increasing without repeats: the order `np.unique` returns its rows in. */
  ghost predicate StrictlySorted(s: seq<Row>) {
    forall i, j :: 0 <= i < j < |s| ==> LexLess(s[i], s[j])
  }

  /** Inserts `x` into a strictly sorted list unless it is already there. */
  function Insert(s: seq<Row>, x: Row): (r: seq<Row>)
    requires StrictlySorted(s)
    ensures StrictlySorted(r)
    ensures forall y :: y in r <==> y in s || y == x
    decreases |s|
  {
    if |s| == 0 then [x]
    else if x == s[0] then s
    else if LexLess(x, s[0]) then
      assert forall j :: 0 <= j < |s| ==> LexLess(x, s[j]) by {
        forall j | 0 <= j < |s|
          ensures LexLess(x, s[j])
        {
          if j > 0 {
            LexLessTransitive(x, s[0], s[j]);
          }
        }
      }
      [x] + s
    else
      LexLessTotal(x, s[0]);
      var tail := Insert(s[1..], x);
      assert forall k :: 0 <= k < |tail| ==> LexLess(s[0], tail[k]) by {
        forall k | 0 <= k < |tail|
          ensures LexLess(s[0], tail[k])
        {
          if tail[k] != x {
            assert tail[k] in tail;
            assert tail[k] in s[1..];
            var j :| 0 <= j < |s[1..]| && s[1..][j] == tail[k];
            assert s[j + 1] == tail[k];
          }
        }
      }
      [s[0]] + tail
  }

  /** The distinct rows of `colors`, sorted: `np.unique(colors, axis=0)`. */
  function Unique(colors: seq<Row>): (u: seq<Row>)
    ensures StrictlySorted(u)
    ensures forall y :: y in u <==> y in colors
    decreases |colors|
  {
    if |colors| == 0 then []
    else Insert(Unique(colors[..|colors| - 1]), colors[|colors| - 1])
  }

  /** Two strictly sorted lists with the same rows are the same list, so
      `Unique` is the only order a sorted-unique result can have. */
  lemma {:induction false} SortedListsWithSameRowsAreEqual(s: seq<Row>, t: seq<Row>)
    requires StrictlySorted(s) && StrictlySorted(t)
    requires forall y :: y in s <==> y in t
    ensures s == t
    decreases |s|
  {
    if |t| > 0 {
      assert t[0] in t;
    }
    if |s| > 0 {
      assert s[0] in t;
      assert |t| > 0;
      if s[0] != t[0] {
        assert t[0] in t;
        assert t[0] in s;
        var i :| 0 <= i < |t| && t[i] == s[0];
        var j :| 0 <= j < |s| && s[j] == t[0];
        assert LexLess(t[0], s[0]);
        assert LexLess(s[0], t[0]);
        LexLessTransitive(s[0], t[0], s[0]);
        LexLessIrreflexive(s[0]);
        assert false;
      }
      forall y
        ensures y in s[1..] <==> y in t[1..]
      {
        if y in s[1..] {
          var j :| 1 <= j < |s| && s[j] == y;
          assert LexLess(s[0], y);
          LexLessIrreflexive(y);
          assert y in t && y != t[0];
        }
        if y in t[1..] {
          var j :| 1 <= j < |t| && t[j] == y;
          assert LexLess(t[0], y);
          LexLessIrreflexive(y);
          assert y in s && y != s[0];
        }
      }
      SortedListsWithSameRowsAreEqual(s[1..], t[1..]);
      assert s == [s[0]] + s[1..] && t == [t[0]] + t[1..];
    }
  }

  /** A strictly sorted list has no repeats, so it has as many entries as
      distinct rows. */
  lemma {:induction false} StrictlySortedCardinality(s: seq<Row>)
    requires StrictlySorted(s)
    ensures |set y | y in s| == |s|
    decreases |s|
  {
    if |s| > 0 {
      var tail := s[1..];
      StrictlySortedCardinality(tail);
      assert s[0] !in tail by {
        if s[0] in tail {
          var j :| 0 <= j < |tail| && tail[j] == s[0];
          assert LexLess(s[0], s[j + 1]);
          LexLessIrreflexive(s[0]);
        }
      }
      assert (set y | y in s) == (set y | y in tail) + {s[0]} by {
        assert s == [s[0]] + tail;
      }
    }
  }

  /** `np.unique` keeps one entry per distinct row. */
  lemma UniqueCountsDistinctRows(colors: seq<Row>)
    ensures |Unique(colors)| == |set y | y in colors|
  {
    var u := Unique(colors);
    StrictlySortedCardinality(u);
    assert (set y | y in u) == (set y | y in colors);
  }
}

=== FILE: utils.dfy ===
/**
 * The collaborators the graphics code calls but whose source is not part of
 * this model: the colormap helpers of `fastplotlib.utils` (`get_colors`,
 * `map_labels_to_colors`, `get_cmap_texture`, `quick_min_max`) and numpy's
 * `np.histogram`. Each is a function-valued field, so every statement about
 * the graphics holds for whatever the collaborators compute. A helper that can
 * raise answers `None` when it does.
 */
module Utils {
  import opened Outcomes
  import opened NdArrays

  /** The `bins` argument of `np.histogram`: a count or a strategy name such as 'auto'. */
  datatype Bins = BinCount(count: nat) | BinRule(rule: string)

  datatype Collaborators = Collaborators(
    getColors: (nat, string, real) -> Option<seq<Row>>,          // get_colors(n_colors, cmap, alpha)
    mapLabelsToColors: (seq<real>, string, real) -> Option<seq<Row>>, // map_labels_to_colors(labels, cmap, alpha)
    cmapTexture: string -> Option<seq<Row>>,                       // get_cmap_texture(name), as its lookup table
    quickMinMax: Matrix -> (real, real),                           // quick_min_max(data)
    histogram: (Row, Bins) -> Option<(Row, Row)>)                  // np.histogram(data, bins) = (hist, bin_edges)

  /** The documented behaviour of the colormap helpers, stated as a named
      assumption: when `get_colors` answers it gives `n` RGBA rows, and when
      `map_labels_to_colors` answers it gives one RGBA row per label. Only
      lemmas that need it take it as a hypothesis. */
  ghost predicate ColormapContract(u: Collaborators) {
    && (forall n: nat, name: string, alpha: real {:trigger u.getColors(n, name, alpha)} ::
          u.getColors(n, name, alpha).Some? ==>
          |u.getColors(n, name, alpha).value| == n &&
          forall i :: 0 <= i < n ==> |u.getColors(n, name, alpha).value[i]| == 4)
    && (forall labels: seq<real>, name: string, alpha: real {:trigger u.mapLabelsToColors(labels, name, alpha)} ::
          u.mapLabelsToColors(labels, name, alpha).Some? ==>
          |u.mapLabelsToColors(labels, name, alpha).value| == |labels| &&
          forall i :: 0 <= i < |labels| ==> |u.mapLabelsToColors(labels, name, alpha).value[i]| == 4)
  }
}
